=== FILE: README.md ===
# FloatView, modelled in Dafny

FloatView is a desktop app with a single always-on-top window. The window shows a web page the user chooses.

The host is a Rust program. It keeps a persisted configuration and sanitises every configuration it receives. It checks each URL before loading it and maintains a history of the last ten pages. It also registers five global hotkeys, runs a tray menu, and answers commands from the page.

Into every page the host injects a JavaScript overlay. The overlay's parts are:

- a thin hotzone at the top of the window;
- a control strip that appears after a short dwell in the hotzone, with a URL bar and a recent-pages dropdown;
- buttons for pin, lock, home, opacity, settings, minimise and close;
- a settings panel and a context menu;
- a mirror of the host's configuration, which it keeps in step from the host's events.

The modules follow that structure:

- `Common` is Option and Result.
- `Text` holds the string primitives both sides rely on: Rust and JavaScript trimming, UTF-8 length, substring search, ASCII lower-casing, splitting.
- `Config` holds the stored configuration, its defaults, and reading and writing it.
- `Urls` is the host's URL check, `normalize_url`.
- `History` is the recent-URL list: de-duplication and move-to-front.
- `Sanitize` is the start-up and `update_config` clean-up, `sanitize_config` and `load_config`.
- `Hotkeys` reads shortcut texts such as "Alt+Shift+T" into a shortcut.
- `Messages` holds the settings the host pushes, and the events, scripts and commands exchanged.
- `Host` holds the host's commands, hotkey and tray actions, and start-up. The window is a class, `HostState`, whose methods update the configuration, the window flags and the record of emitted events and evaluated scripts.
- `Bridge` is the overlay's bounded wait for the host bridge.
- `Dwell` is the hotzone's dwell timer as written and as corrected (see Findings).
- `Overlay` is the overlay as a class, `Overlay`, with one method per handler. It also holds the pure functions behind the dropdown and the URL bar, and the page-level run-once guard, `Page`.

The URL parser (the `url` crate's `Url::parse`) is a parameter, `parse`, of every member that checks URLs. Lemmas that depend on how the parser behaves state that behaviour as a precondition about the particular input:

- `ReportsSchemeOfText`: the scheme is the text before the first colon, lower-cased.
- `SerializesWithScheme`: a web URL serialises starting with its scheme.
- `ReparsesStably` and `ParsesStably`: a serialised URL parses back to itself.

Replies from the host, the presence of the bridge and of the page body, where the pointer goes and which timers fire are all parameters of the methods that receive them.

## Model

| member | source | states |
|---|---|---|
| Config.DefaultWindowConfig | src-tauri/src/config.rs:15-28 | the default window lies within the size clamp (200 to 10 000) and the opacity clamp (0.1 to 1.0) |
| Config.DefaultAppConfig | src-tauri/src/config.rs:73-86 | the default configuration has an empty recent list, no last URL, the built-in home page, the first-run flag set, no audio device, no launch at start-up and a window within bounds |
| Config.Deserialize | src-tauri/src/config.rs:51-71 | a stored document is read exactly when `window`, `launch_at_startup` and `hotkeys` are present, and otherwise fails naming the first missing one; `window`, `launch_at_startup` and `hotkeys` are taken as stored; a missing `last_url`, `recent_urls` or `audio_device_id` becomes None; a missing `home_url` becomes "https://www.google.com"; a missing `first_run` becomes true |
| Config.DeserializeSerialize | src-tauri/src/config.rs:51-63 | reading back a written configuration gives the same configuration |
| Config.OlderDocumentGetsDefaults | src-tauri/src/config.rs:59-71 | a document without `home_url` and `first_run` reads with the built-in home page and `first_run` set |
| Text.Trim | src-tauri/src/main.rs:112 | the trimmed text neither starts nor ends with whitespace, and is empty exactly when the input is all whitespace |
| Text.TrimIsInfix | src-tauri/src/main.rs:112 | the trimmed text is a slice of the input, and everything cut off before and after it is whitespace |
| Text.TrimIdempotent | src-tauri/src/main.rs:112 | trimming twice is trimming once |
| Text.TrimKeepsClean | src-tauri/src/main.rs:139 | a text with no whitespace at either end is its own trim |
| Text.Utf8Len | src-tauri/src/main.rs:116 | the byte length lies between the character count and four times it, and equals the count exactly for ASCII text |
| Text.Utf8LenAppend | src-tauri/src/main.rs:116 | the byte length of a concatenation is the sum of the parts' byte lengths |
| Text.Utf8LenSingle | src-tauri/src/main.rs:116 | one character takes the 1 to 4 bytes of its UTF-8 encoding; with the sum rule, a text takes the sum of its characters' widths |
| Text.JoinSplit | src-tauri/src/main.rs:627 | joining the '+'-separated pieces gives back the text |
| Text.SplitJoin | src-tauri/src/main.rs:627 | splitting the join of pieces that contain no '+' gives back the pieces |
| Urls.Candidate | src-tauri/src/main.rs:120-124 | an input containing "://" is handed to the parser as it is; any other input gets "https://" in front; either way the text contains "://" |
| Urls.NormalizeUrlCases | src-tauri/src/main.rs:111-136 | blank input fails with "URL cannot be empty"; over 2048 bytes fails with "URL is too long"; otherwise the check succeeds exactly when the parser accepts the candidate as http or https with a host, and then returns the parser's serialisation |
| Urls.BareInputGetsHttps | src-tauri/src/main.rs:120-135 | clean input without "://" is loaded as the serialisation of "https://" plus the input |
| Urls.ExampleComNormalizes | src-tauri/src/main.rs:949-952 | "example.com" becomes "https://example.com/" |
| Urls.OtherSchemeRejected | src-tauri/src/main.rs:126-130 | input that names a scheme other than http or https with "://" is refused, whatever that scheme is |
| Urls.FileUrlRejected | src-tauri/src/main.rs:954-957 | every "file://" address is refused, "file:///tmp/test" among them |
| Urls.CleanSchemedRejected | src-tauri/src/main.rs:120-130 | trimmed input with "://" whose scheme text is not http or https is refused |
| Urls.AcceptedIsHttp | src-tauri/src/main.rs:126-135 | every accepted URL starts with "http://" or "https://" |
| Urls.BareAcceptedIsHttps | src-tauri/src/main.rs:120-135 | input without "://", if accepted, always comes out as https |
| Urls.NoSlashInputIsWrapped | src-tauri/src/main.rs:120-135 | clean input without a '/' is parsed behind "https://" and, if accepted at all, comes out as an https address |
| Urls.JavascriptAlertIsBare | src-tauri/src/main.rs:954-958 | "javascript:alert(1)" is clean and has no '/', so by the row above it can never be loaded as a javascript URL |
| Urls.WebSerialization | src-tauri/src/main.rs:126-135 | a serialisation that starts with http or https and "://" starts with 'h' and contains "://" |
| Urls.NormalizeIdempotent | src-tauri/src/main.rs:111-136 | checking an accepted URL again returns it unchanged |
| Hotkeys.ModifiersOf | src-tauri/src/main.rs:632-640 | the modifier set holds exactly the modifiers named by some word |
| Hotkeys.ParseHotkey | src-tauri/src/main.rs:626-653 | the loop over the pieces computes the shortcut the text means |
| Hotkeys.LastWordIsKey | src-tauri/src/main.rs:643-652 | a list of words is a shortcut exactly when its last word names a key; the key is that word's, the modifiers are those of the other words |
| Hotkeys.RegisteredIffKeyLast | src-tauri/src/main.rs:626-653 | a text is registered exactly when its last '+'-piece names one of t, d, up, down, h |
| Hotkeys.BareKey | src-tauri/src/main.rs:626-653 | a text without '+' is a key with no modifier, or nothing |
| Hotkeys.LeadingPiece | src-tauri/src/main.rs:632-640 | a leading piece only adds its modifier (unknown words are ignored) and never changes whether the text registers |
| Hotkeys.LeadingPiecesCommute | src-tauri/src/main.rs:632-640 | "Shift+Alt+T" and "Alt+Shift+T" are the same shortcut |
| Hotkeys.DefaultShortcut | src-tauri/src/config.rs:39-49 | any text "Alt+Shift+key" whose key word is known reads as that key with Alt and Shift held |
| Hotkeys.KeyNameReads | src-tauri/src/config.rs:41-45 | the key names of the default shortcuts ("T", "D", "Up", "Down", "H") contain no '+' and read as the five keys |
| History.Take | src-tauri/src/main.rs:336-338 | the first n entries: a prefix of at most n entries, the whole list when it is shorter |
| History.Dedup | src-tauri/src/main.rs:158-171 | no entry twice, the same entries as the input, never longer |
| History.DedupPrefix | src-tauri/src/main.rs:158-171 | the entries kept from a prefix stay, in place, whatever follows |
| History.DedupKeepsDistinct | src-tauri/src/main.rs:158-171 | a list without duplicates is kept as it is |
| History.DedupIdempotent | src-tauri/src/main.rs:158-171 | de-duplicating twice is de-duplicating once |
| History.Remove | src-tauri/src/main.rs:334 | `retain` leaves no occurrence of the URL, keeps every other entry as often as it occurred and in its original order (a subsequence), and leaves a list without the URL unchanged |
| History.RemoveKeepsDistinct | src-tauri/src/main.rs:334 | removing keeps a list without duplicates |
| History.PushRecentShape | src-tauri/src/main.rs:333-338 | after a visit the page heads the list and appears nowhere else; behind it come the old entries without the page, in order, as many as fit: the list is one longer than the old list without the page, but at most ten entries |
| History.PushRecentEntries | src-tauri/src/main.rs:333-338 | a visit adds no entry other than the visited page |
| History.PushRecentKeepsDistinct | src-tauri/src/main.rs:333-338 | a visit keeps the list free of duplicates |
| History.PushRecentIdempotent | src-tauri/src/main.rs:333-338 | visiting the head of the list again changes nothing |
| Sanitize.ClampI32 | src-tauri/src/main.rs:148-149 | `i32::clamp`: within the bounds, unchanged inside them, the nearer bound outside |
| Sanitize.ClampReal | src-tauri/src/main.rs:150 | `f64::clamp` on reals, with the same three cases |
| Sanitize.SanitizeHotkey | src-tauri/src/main.rs:138-145 | a non-empty trimmed text of at most 64 bytes is kept; an empty or longer one gives the fallback; the result is a usable hotkey text whenever the fallback is |
| Sanitize.SanitizeHotkeyKeepsValid | src-tauri/src/main.rs:138-145 | a usable text is kept as it is |
| Sanitize.SanitizeHotkeyIdempotent | src-tauri/src/main.rs:138-145 | sanitising twice is sanitising once |
| Sanitize.SanitizeHotkeyFallsBack | src-tauri/src/main.rs:140-141 | blank text, or text over 64 bytes once trimmed, gives the fallback |
| Sanitize.DefaultHotkeysValid | src-tauri/src/main.rs:173-178 | the five fallback shortcuts are usable hotkey texts |
| Sanitize.SanitizeHotkeys | src-tauri/src/main.rs:173-178 | all five sanitised hotkeys are usable |
| Sanitize.SanitizeHotkeysKeepsValid | src-tauri/src/main.rs:173-178 | usable hotkeys pass through unchanged |
| Sanitize.SanitizeWindow | src-tauri/src/main.rs:148-151 | width and height are clamped to 200 to 10 000, opacity to 0.1 to 1.0, a negative monitor becomes 0 and any other is kept; position, always-on-top and locked are kept |
| Sanitize.SanitizeWindowKeepsValid | src-tauri/src/main.rs:148-151 | a window already within bounds is unchanged |
| Sanitize.SanitizeHome | src-tauri/src/main.rs:153-155 | the home page is the checked stored one; else the checked built-in one; else the built-in one unchanged |
| Sanitize.NormalizedUrls | src-tauri/src/main.rs:159-161 | a URL is kept exactly when it is the normal form of some stored entry, and the list never grows |
| Sanitize.SanitizeRecent | src-tauri/src/main.rs:157-171 | the loop with its seen set and early stop at ten computes the first ten distinct normal forms |
| Sanitize.SanitizeConfig | src-tauri/src/main.rs:147-183 | the clean-up computes the field-by-field sanitised configuration |
| Sanitize.SanitizedConfigIsSanitized | src-tauri/src/main.rs:147-183 | the clean-up gives: a window within bounds, a non-negative monitor, at most ten distinct recent URLs and five usable hotkeys |
| Sanitize.SanitizedUrlsAreNormalized | src-tauri/src/main.rs:153-171 | every recent URL kept, and the last URL, is the normal form of a stored one |
| Sanitize.SanitizeKeepsOtherFields | src-tauri/src/main.rs:147-183 | audio device, launch-at-startup and first-run flags are untouched |
| Sanitize.SameUrlKeptOnce | src-tauri/src/main.rs:960-992 | stored entries that normalise to the same URL are kept once, at the first; entries that fail are dropped |
| Sanitize.CleanRecentIdempotent | src-tauri/src/main.rs:157-171 | cleaning a cleaned list changes nothing |
| Sanitize.NormalizedIsFixed | src-tauri/src/main.rs:111-136 | a URL that parses stably is its own normal form once normalised |
| Sanitize.SanitizeIdempotent | src-tauri/src/main.rs:147-183 | cleaning a cleaned configuration changes nothing |
| Sanitize.LoadConfig | src-tauri/src/main.rs:185-196 | a readable document is cleaned, anything else falls back to the cleaned defaults, and the result is always sanitised |
| Messages.WithPush | src-tauri/src/main.rs:264 | a pushed setting changes its own field of the configuration and no other |
| Host.StartupUrl | src-tauri/src/main.rs:888-893 | start-up opens the checked last URL if it passes, else the checked home page, else the built-in home |
| Host.HomeTarget | src-tauri/src/main.rs:478 | "go home" opens the checked home page, or the built-in home when it fails the check |
| Host.StartupUrlIsWeb | src-tauri/src/main.rs:888-893 | whatever is stored, start-up opens an http(s) address or the built-in home |
| Host.Visited | src-tauri/src/main.rs:328-344 | after a visit, the page is the last URL and heads the recent list; window, hotkeys and home page are kept |
| Host.VisitedKeepsSanitized | src-tauri/src/main.rs:328-344 | a visit keeps a sanitised configuration sanitised |
| Host.RestartResumesVisit | src-tauri/src/main.rs:888-893 | after a visit, the next start-up reopens the visited page |
| Host.RestartAfterHome | src-tauri/src/main.rs:467-484 | after "go home", the next start-up opens the page "go home" opened |
| Host.GeometryUpdated | src-tauri/src/main.rs:346-351 | the position is stored as given; width and height are clamped to 200 to 10 000; nothing else changes |
| Host.GeometryClampExample | src-tauri/src/main.rs:994-1003 | 100 by 25 000 at (123, 456) is stored as 200 by 10 000 at (123, 456) |
| Host.OpacityStepUndone | src-tauri/src/main.rs:586-611 | in the model's exact arithmetic, one opacity step up then down restores an opacity the clamp did not cut (the program's f64 sums need not, see "## Left out") |
| Host.OpacityStepDownUndone | src-tauri/src/main.rs:586-611 | in the model's exact arithmetic, one step down then up restores an opacity the clamp did not cut (the program's f64 sums need not, see "## Left out") |
| Host.Bindings | src-tauri/src/main.rs:655-718 | registration binds at most the five actions |
| Host.DefaultBinding | src-tauri/src/config.rs:39-49 | read as shortcuts, the default hotkey texts bind toggle-on-top to Alt+Shift+T, toggle-locked to Alt+Shift+D, opacity up and down to Alt+Shift+Up and Alt+Shift+Down, and toggle-visibility to Alt+Shift+H |
| Host.Bind | src-tauri/src/main.rs:655-718 | every registered shortcut is what its action's text reads as, and belongs to that action |
| Host.BoundIffReads | src-tauri/src/main.rs:655-718 | an action is bound exactly when its text reads as a shortcut |
| Host.BoundIffParses | src-tauri/src/main.rs:655-718 | each of the five actions is registered exactly when its hotkey text parses |
| Host.PushKeepsSanitized | src-tauri/src/main.rs:252-325 | a toggle, or an opacity within the clamp, keeps a sanitised configuration sanitised |
| Host.HostState.constructor | src-tauri/src/main.rs:831-846 | the window starts with the stored always-on-top and opacity, is not click-through, and opens the start-up page |
| Host.HostState.GetConfig | src-tauri/src/main.rs:219-223 | returns the held configuration, which is sanitised |
| Host.HostState.UpdateConfig | src-tauri/src/main.rs:225-241 | holds the sanitised form of the given configuration and emits it as "config-changed" |
| Host.HostState.Install | src-tauri/src/main.rs:231-238 | stores a clean configuration and announces it |
| Host.HostState.Navigate | src-tauri/src/main.rs:243-249 | loads the checked URL, or fails with the check's message and loads nothing |
| Host.HostState.SetUrl | src-tauri/src/main.rs:328-344 | the retain, insert and truncate steps give the visited configuration; a refused URL leaves everything unchanged |
| Host.HostState.UpdateWindowGeometry | src-tauri/src/main.rs:346-351 | the stored geometry becomes the clamped one |
| Host.HostState.ToggleAlwaysOnTop | src-tauri/src/main.rs:252-272 | flips the window's flag, stores and emits it; from a hotkey or the tray the overlay is also updated by script |
| Host.HostState.SetOpacity | src-tauri/src/main.rs:275-293 | window and stored opacity become the clamped value, which is emitted |
| Host.HostState.SetOpacityLive | src-tauri/src/main.rs:295-300 | only the window's opacity changes, to the clamped value |
| Host.HostState.OpacityChange | src-tauri/src/main.rs:586-611 | the stored opacity moves by the step and is clamped; it is applied, emitted and scripted into the overlay |
| Host.HostState.ToggleLocked | src-tauri/src/main.rs:302-325 | flips the stored lock; the window ignores the cursor exactly when locked; the change is emitted |
| Host.HostState.ExitClickThrough | src-tauri/src/main.rs:444-464 | afterwards the window is unlocked; if it already was, nothing happens at all |
| Host.HostState.NavigateHome | src-tauri/src/main.rs:467-484 | forgets the last URL, stops loading and opens the home target |
| Host.HostState.ToggleVisibility | src-tauri/src/main.rs:701-715 | shows a hidden window and hides a shown one; it also stands for a left click on the tray icon (src-tauri/src/main.rs:808-825), which does the same |
| Host.HostState.OpenSettingsFromTray | src-tauri/src/main.rs:773-780 | shows the window and asks the overlay for its settings panel, by event and by script |
| Host.HostState.OnTrayItem | src-tauri/src/main.rs:772-807 | each tray entry has exactly the effect of its command, stated as the whole new host state (configuration, window flags, emitted events, evaluated scripts) with every other part unchanged; "exit lock" changes nothing when unlocked and "quit" changes nothing |
| Host.HostState.OnShortcut | src-tauri/src/main.rs:657-717 | each hotkey has exactly the effect of its command with the overlay told directly, stated as the whole new host state with every other part unchanged; the opacity keys step the stored opacity by ±0.05 within the clamp and push it to the window, the settings and the overlay |
| Host.Start | src-tauri/src/main.rs:865-893 | start-up holds the cleaned stored configuration (or the cleaned defaults), applies its always-on-top and opacity to the window, leaves the cursor caught and the window shown, emits nothing, and opens the start-up page |
| Bridge.WaitForBridge | src-tauri/src/injection.js:771-779 | at most thirty waits; stops at the first sighting; finds the bridge exactly when it appears within the thirty waits |
| Bridge.Settle | src-tauri/src/injection.js:780-782 | once the bridge is there, the host's value resolves the call and its error rejects it |
| Bridge.Invoke | src-tauri/src/injection.js:771-784 | a command resolves to `null` exactly when the bridge never appears, after all thirty waits; otherwise it settles as the host answered |
| Dwell.EnterAsWritten | src-tauri/src/injection.js:704-707 | entering arms a new timer and keeps the old one running |
| Dwell.EnterCorrected | src-tauri/src/injection.js:704-707 | entering cancels the remembered timer before arming a new one |
| Dwell.LeaveHotzone | src-tauri/src/injection.js:709-721 | leaving for the strip or drag bar changes nothing; leaving elsewhere cancels the remembered timer |
| Dwell.FireTimer | src-tauri/src/injection.js:641-646 | a pending timer that fires shows the strip |
| Dwell.OrphanedTimerShowsStrip | src-tauri/src/injection.js:704-721 | as written, the path hotzone, drag bar, hotzone, away leaves a dwell timer pending that shows the strip |
| Dwell.CorrectedKeepsTracked | src-tauri/src/injection.js:704-721 | with the correction, only the remembered timer is ever pending |
| Dwell.LeavingCancelsDwell | src-tauri/src/injection.js:709-721 | with the correction, leaving the hotzone for elsewhere leaves no dwell pending, whatever came before |
| Overlay.Entries | src-tauri/src/injection.js:624-629 | one row per URL in order; a row is marked current exactly when its URL is the page's |
| Overlay.RenderRecent | src-tauri/src/injection.js:618-629 | the placeholder exactly when there is no mirror, no list or an empty list; otherwise the rows of the list |
| Overlay.ClickTarget | src-tauri/src/injection.js:631-637 | a click on a row goes to that row's URL, unless it is empty or current |
| Overlay.ClickLeavesCurrentPage | src-tauri/src/injection.js:618-637 | a click never reloads the page on show; every other non-empty row is a link |
| Overlay.AtMostOneCurrent | src-tauri/src/injection.js:624-629 | with the host's duplicate-free list, at most one row is current |
| Overlay.UrlBarTargetAsWritten | src-tauri/src/injection.js:796-802 | the trimmed input, with "https://" in front unless it starts with lower-case "http://" or "https://"; empty exactly when the input is blank |
| Overlay.UrlBarTarget | src-tauri/src/injection.js:796-802 | the same, with the scheme test ignoring case |
| Overlay.UpperCaseSchemeWrapped | src-tauri/src/injection.js:797-799 | as written "HTTPS://..." is sent as "https://HTTPS://..."; the corrected bar sends it as typed |
| Overlay.UrlBarSendsWebUrls | src-tauri/src/injection.js:796-802 | what the bar sends always starts with a web scheme, and a typed web address is sent as typed |
| Overlay.UrlBarIdempotent | src-tauri/src/injection.js:796-802 | entering the bar's result again sends the same page |
| Overlay.PrefillUrl | src-tauri/src/injection.js:1011-1018 | the bar shows the page's own address unless it is empty, "tauri://" or "about:blank"; otherwise the non-empty last URL; otherwise it is left alone |
| Overlay.HomeUrlSetting | src-tauri/src/injection.js:865-870 | the sent home page is the trimmed input, or the built-in home when that is blank; never empty |
| Overlay.SliderOpacity | src-tauri/src/injection.js:823-826 | a slider position of 10 to 100 percent sends an opacity within the host's clamp |
| Overlay.MirrorPush | src-tauri/src/injection.js:1021-1042 | a pushed setting changes the mirror the way the host changed its configuration; without a mirror nothing changes |
| Overlay.MirrorKeepsStep | src-tauri/src/injection.js:1064-1092 | a mirror equal to the host's configuration stays equal through any sequence of pushed settings |
| Overlay.Overlay.constructor | src-tauri/src/injection.js:13-16 | a new overlay has the strip hidden, no timers, no mirror, nothing sent and nothing subscribed |
| Overlay.Overlay.ShowStrip | src-tauri/src/injection.js:641-646 | shows the strip and cancels a pending hide |
| Overlay.Overlay.HideStrip | src-tauri/src/injection.js:648-652 | hides the strip |
| Overlay.Overlay.ScheduleHide | src-tauri/src/injection.js:654-664 | arms the hide timer, replacing one already armed |
| Overlay.Overlay.CancelHide | src-tauri/src/injection.js:666-671 | disarms the hide timer |
| Overlay.Overlay.HideTimerFires | src-tauri/src/injection.js:656-663 | the strip hides unless the settings panel or the dropdown is open |
| Overlay.Overlay.DwellTimerFires | src-tauri/src/injection.js:704-707 | a pending dwell shows the strip |
| Overlay.Overlay.HotzoneEntered | src-tauri/src/injection.js:704-707 | cancels a pending hide and arms the one dwell timer |
| Overlay.Overlay.HotzoneLeft | src-tauri/src/injection.js:709-721 | into the strip or drag bar nothing happens; elsewhere the dwell is cancelled and a shown strip is scheduled to hide |
| Overlay.Overlay.StripEntered | src-tauri/src/injection.js:736-742 | cancels the pending hide and the dwell |
| Overlay.Overlay.StripLeft | src-tauri/src/injection.js:723-734 | schedules the hide unless the pointer went to the hotzone or drag bar, or the panel or dropdown is open |
| Overlay.Overlay.DragBarEntered | src-tauri/src/injection.js:693-695 | cancels the pending hide |
| Overlay.Overlay.DragBarDoubleClicked | src-tauri/src/injection.js:689-691 | sends `maximize_toggle` |
| Overlay.Overlay.RecentButtonClicked | src-tauri/src/injection.js:752-759 | toggles the dropdown and redraws it on opening |
| Overlay.Overlay.DocumentClicked | src-tauri/src/injection.js:761-765 | a click outside the strip closes the dropdown; a click outside the menu closes the menu |
| Overlay.Overlay.RecentItemClicked | src-tauri/src/injection.js:631-637 | records the visit with `set_url`, then goes to the row's page unless the host refused |
| Overlay.Overlay.PinClicked | src-tauri/src/injection.js:786-792 | the pin follows the host's new value; with no bridge or a refusal nothing changes |
| Overlay.Overlay.UrlTyped | src-tauri/src/injection.js:794-805 | the bar holds what was typed |
| Overlay.Overlay.UrlKeyPressed | src-tauri/src/injection.js:794-805 | Enter sends the bar's page, if any, and goes there unless the host refused; other keys do nothing |
| Overlay.Overlay.HomeClicked | src-tauri/src/injection.js:807-809 | sends `navigate_home` |
| Overlay.Overlay.LockClicked | src-tauri/src/injection.js:811-821 | the lock follows the host's new value; locking hides the strip and the whole overlay |
| Overlay.Overlay.SliderMoved | src-tauri/src/injection.js:823-826 | sends the slider's opacity |
| Overlay.Overlay.MinimizeClicked | src-tauri/src/injection.js:971-973 | sends `minimize_window` |
| Overlay.Overlay.CloseClicked | src-tauri/src/injection.js:975-978 | saves the geometry, then closes unless saving failed |
| Overlay.Overlay.OpenSettings | src-tauri/src/injection.js:843-858 | opens the settings panel |
| Overlay.Overlay.CloseSettings | src-tauri/src/injection.js:860-863 | closes the settings panel |
| Overlay.Overlay.HomeUrlChanged | src-tauri/src/injection.js:865-870 | writes the new home page into the mirror and sends the whole mirror; with no mirror, nothing |
| Overlay.Overlay.SettingOnTopClicked | src-tauri/src/injection.js:872-877 | the pin shows the host's answer, off when the bridge is missing; a refusal changes nothing |
| Overlay.Overlay.SettingLockedClicked | src-tauri/src/injection.js:879-889 | the lock shows the host's answer; locking closes the panel and hides strip and overlay |
| Overlay.Overlay.SettingOpacityMoved | src-tauri/src/injection.js:891-895 | sends the slider's opacity |
| Overlay.Overlay.ClearRecentClicked | src-tauri/src/injection.js:897-903 | empties the mirrored list and sends the mirror; redraws the empty dropdown unless the host refused |
| Overlay.Overlay.ContextMenuOpened | src-tauri/src/injection.js:924-928 | a right click away from the strip's controls opens the menu |
| Overlay.Overlay.MenuSettingsClicked | src-tauri/src/injection.js:936-940 | closes the menu, shows the strip and opens the panel |
| Overlay.Overlay.MenuOnTopClicked | src-tauri/src/injection.js:942-947 | closes the menu; the pin shows the host's answer |
| Overlay.Overlay.MenuLockedClicked | src-tauri/src/injection.js:949-958 | closes the menu; the lock shows the answer; locking hides strip and overlay |
| Overlay.Overlay.MenuMinimizeClicked | src-tauri/src/injection.js:960-963 | closes the menu and sends `minimize_window` |
| Overlay.Overlay.MenuCloseClicked | src-tauri/src/injection.js:965-969 | closes the menu, saves the geometry, then closes unless saving failed |
| Overlay.Overlay.KeyPressed | src-tauri/src/injection.js:980-994 | the whole new view: Ctrl+L shows the strip, cancels a pending hide and focuses the bar; Escape hides a shown strip and leaves the bar (a hidden strip and the bar's focus stay as they were), keeps any pending hide, and closes the panel; other keys change nothing |
| Overlay.Overlay.ConfigLoaded | src-tauri/src/injection.js:996-1019 | the mirror takes the host's configuration (None with no bridge, unchanged on refusal); pin, lock and dropdown follow it; the bar is pre-filled |
| Overlay.Overlay.ReceivePush | src-tauri/src/injection.js:1021-1042 | the whole new view: the setting's button follows the pushed value; locking hides the strip and the whole overlay, unlocking shows the overlay; the mirror takes the value; nothing else changes |
| Overlay.Overlay.ReceiveOpenSettings | src-tauri/src/injection.js:1043-1047 | the whole new view: overlay, strip and settings panel shown, a pending hide cancelled, nothing else changed |
| Overlay.Overlay.ReceiveConfig | src-tauri/src/injection.js:1089-1092 | the whole new view: the mirror becomes the host's configuration and the dropdown is redrawn; buttons and visibility stay |
| Overlay.Overlay.OnEvent | src-tauri/src/injection.js:1064-1098 | the whole new view: before subscribing nothing changes; after it, a setting event, "config-changed" and "open-settings" have exactly the effects of ReceivePush, ReceiveConfig and ReceiveOpenSettings |
| Overlay.Overlay.OnScript | src-tauri/src/injection.js:1021-1049 | the whole new view: `__floatViewUpdate` applies a pushed setting exactly as ReceivePush or opens the settings exactly as ReceiveOpenSettings; stopping and loading leave the overlay as it was |
| Overlay.PushKeepsButtonsInStep | src-tauri/src/injection.js:1021-1042 | a pushed setting keeps the pin and lock buttons showing what the mirror holds; a lock push leaves the overlay shown exactly when unlocked, and locking hides the strip |
| Overlay.Overlay.SetupListeners | src-tauri/src/injection.js:1054-1102 | subscribes once when the event bridge is there; subscribing again does nothing |
| Overlay.Overlay.StartListeners | src-tauri/src/injection.js:1105-1112 | at most 101 tries; subscribes exactly when the bridge appears within them, at the first sighting, and only once |
| Overlay.Overlay.TryInit | src-tauri/src/injection.js:1128-1137 | once the body exists, inserts the overlay and asks for the configuration, never twice |
| Overlay.Overlay.StartInit | src-tauri/src/injection.js:1139-1148 | starts once, sending exactly one `get_config` when it starts and none otherwise; it starts exactly when the body appears at one of the ticks before parsing finishes or the 30 s run out, or is there when parsing finishes |
| Overlay.Page.RunScript | src-tauri/src/injection.js:4-5 | the first run builds the overlay; later runs in the same page leave it alone |

## Left out

- File I/O is not modelled: `save_config` writing JSON to disk, and reading the file in `load_config`, which is a parameter here. Logging and the single-instance plugin are left out too. The updater commands (`get_version`, `check_for_updates`, `install_update`) and the user-agent selection are also out.
- Mutex poisoning is not modelled. A command fails with the lock error; a hotkey or tray action does nothing, except that "go home" then opens the built-in home. All are outside the model.
- A window call that fails is not modelled. Commands return early with its message; the direct actions ignore it.
- `Url::parse` internals are a parameter. The parser facts lemmas need are preconditions.
- The opacity and click-through platform code is not modelled. The window's opacity and its cursor-ignoring are plain fields.
- Host.HostState.constructor: does not model the `u32` cast of the size in `apply_window_state`. It never matters here, because the clean-up keeps both dimensions at least 200.
- Host.Bindings: does not model a clash between two configured shortcuts. The registry would refuse the second. `register_hotkeys` would return that error, `setup` would return it before the tray is built, and the application would fail to start.
- The Alt+Shift+H visibility hotkey also focuses the window; focus is not modelled.
- Floating-point rounding is not modelled: opacities are reals, and `Math.round(opacity * 100)` in the sliders is left out.
- The overlay's DOM is not modelled: markup, CSS, icons, dragging, the MutationObserver that re-inserts the overlay, the `pageshow` re-insertion and the console messages are all out. So are the settings panel's form filling (`openSettings` copying the mirror into its controls) and the closed-shadow-root details of the click targets.
- Navigation replaces the page, and with it the overlay. When the overlay itself navigates (Overlay.Overlay.RecentItemClicked, Overlay.Overlay.UrlKeyPressed), the model records the new address in `location` and stops there. A `Load` script from the host leaves the overlay as it is, `location` included; the fresh overlay of the new page is a new `Overlay`.
- The timer delays (100 ms dwell, 300 ms hide, 50 ms ticks) appear as counts of ticks or as armed flags. Wall-clock time is left out.
- Overlay.Overlay.HotzoneEntered: follows the corrected handler of the first row under "## Findings", cancelling a held dwell timer before arming a new one. The code as written, which can orphan a timer, is modelled by Dwell.OrphanedTimerShowsStrip.
- Overlay.Overlay.UrlKeyPressed: follows the corrected handler of the second row under "## Findings", testing the scheme ignoring case. The code as written, which wraps "HTTPS://…" again, is modelled by Overlay.UrlBarTargetAsWritten and Overlay.UpperCaseSchemeWrapped.
- Host.OpacityStepUndone: holds for exact arithmetic only. The program adds in f64, and with IEEE-754 rounding to nearest 0.1 + 0.05 gives 0.15000000000000002, and taking 0.05 off that gives 0.10000000000000002, not 0.1.
- Host.OpacityStepDownUndone: holds for exact arithmetic only. In f64, 0.15 − 0.05 gives 0.09999999999999999, which the clamp raises to 0.1; adding 0.05 then gives 0.15000000000000002, not 0.15.
- Overlay.Overlay.StartInit: treats the 30-second timeout as exactly 600 ticks. It counts the last tick, which is due at the same moment as the timeout.
- Urls.NoSlashInputIsWrapped: states only that an accepted result is https. The test's outright refusal comes from the parser rejecting "alert(1)" as a port, which is inside the parser.
- `to_lowercase` in `parse_hotkey` is modelled as ASCII lower-casing. The two differ only on characters that lower-case into ASCII, such as the Kelvin sign, and none of the key words contains such a letter.

### Behaviour of the code worth knowing

- `invoke` sends a command's arguments as given, with nothing added.
- `first_run` is never cleared.
- Escape both hides a shown strip and closes the settings panel.
- "config-changed" replaces the overlay's mirror and redraws the dropdown, but leaves the pin and lock buttons as they were. Only a pushed setting moves a button.
- The overlay listens for "save-state", which the host never emits.
- `set_url` emits no "config-changed". The overlay's mirrored recent list is therefore stale until the next full configuration arrives.
- Start-up applies the stored always-on-top and opacity, but not the stored lock. A stored `locked: true` leaves the window accepting the cursor until the lock is toggled.
- When there is no bridge, `get_config` settles with `null` and the overlay's mirror becomes `null`. A refused `get_config` keeps the old mirror.

## Findings

| source | as written | input that shows it | evidently intended | confidence | as-written member | corrected member |
|---|---|---|---|---|---|---|
| src-tauri/src/injection.js:704-707 | entering the hotzone overwrites `dwellTimer` without cancelling the timer it held | pointer enters the hotzone, leaves to the drag bar, re-enters the hotzone and leaves the window within 100 ms: the first timer survives and shows the strip with the pointer gone | cancel the held dwell timer before arming a new one, so that leaving always cancels the dwell | medium, not executed | Dwell.OrphanedTimerShowsStrip | Dwell.LeavingCancelsDwell |
| src-tauri/src/injection.js:797-799 | the scheme test `/^https?:\/\//` is case-sensitive | typing "HTTPS://example.com" sends "https://HTTPS://example.com", a page on the host "https" | test the scheme ignoring case, as URL schemes are compared | low, not executed | Overlay.UpperCaseSchemeWrapped | Overlay.UrlBarSendsWebUrls |

=== FILE: bridge.dfy ===
/** How the overlay reaches the host. The page may run before the bridge to
    the host exists, so every command first waits for it: thirty waits of
    50 ms at most, checking after each. A command sent without a bridge
    settles with `null` instead of failing. */
module Bridge {
  import opened Common
  import opened Messages

  /** How many 50 ms waits a command makes before giving up. */
  const BRIDGE_WAITS: nat := 30

  /** Waits for the bridge. `present(k)` says whether the bridge is there
      after `k` waits. The result says whether it was found and after how
      many waits; the first sighting ends the wait. */
  method WaitForBridge(present: nat -> bool) returns (ready: bool, waits: nat)
    ensures waits <= BRIDGE_WAITS
    ensures ready == present(waits)
    ensures forall k :: 0 <= k < waits ==> !present(k)
    ensures !ready ==> waits == BRIDGE_WAITS
    ensures ready <==> exists k :: 0 <= k <= BRIDGE_WAITS && present(k)
  {
    waits := 0;
    ready := present(0);
    if !ready {
      var i := 0;
      while i < BRIDGE_WAITS
        invariant 0 <= i <= BRIDGE_WAITS && waits == i
        invariant forall k :: 0 <= k <= i ==> !present(k)
      {
        waits := i + 1;
        if present(waits) {
          break;
        }
        i := i + 1;
      }
      ready := present(waits);
    }
  }

  /** How the host's answer reaches the page once the bridge is there. */
  function Settle<T>(answer: Result<T, string>): (r: Reply<T>)
    ensures r.Resolved? <==> answer.Success?
    ensures r.Resolved? ==> r.value == answer.value
    ensures r.Rejected? ==> r.error == answer.error
    ensures !r.Bridgeless?
  {
    match answer
    case Success(v) => Resolved(v)
    case Failure(e) => Rejected(e)
  }

  /** Sends a command: waits for the bridge, then hands over the host's
      `answer`; settles with `null` when the bridge never shows up within
      the thirty waits, and in that case never after fewer waits. */
  method Invoke<T>(present: nat -> bool, answer: Result<T, string>) returns (reply: Reply<T>, waits: nat)
    ensures waits <= BRIDGE_WAITS
    ensures reply.Bridgeless? <==> forall k :: 0 <= k <= BRIDGE_WAITS ==> !present(k)
    ensures reply.Bridgeless? ==> waits == BRIDGE_WAITS
    ensures !reply.Bridgeless? ==> reply == Settle(answer) && present(waits)
  {
    var ready;
    ready, waits := WaitForBridge(present);
    if ready {
      reply := Settle(answer);
    } else {
      reply := Bridgeless;
    }
  }
}

=== FILE: common.dfy ===
/** Option and Result, the two failure-carrying shapes the Rust side uses
    (`Option<T>` and `Result<T, String>`) and the JavaScript side approximates
    with `null`. */
module Common {

  datatype Option<+T> = None | Some(value: T) {
    function GetOr(default: T): T {
      match this
      case Some(v) => v
      case None => default
    }
  }

  datatype Result<+T, +E> = Success(value: T) | Failure(error: E)
}

=== FILE: config.dfy ===
/** The persisted configuration of the host: window geometry and state, the
    five global hotkeys, the navigation history and the first-run flag, with
    the values the host uses when nothing is stored. */
module Config {
  import opened Common

  /** Rust's `i32`. */
  type I32 = x: int | -0x8000_0000 <= x <= 0x7FFF_FFFF

  const DEFAULT_HOME_URL: string := "https://www.google.com"
  const MIN_WINDOW_SIZE: I32 := 200
  const MAX_WINDOW_SIZE: I32 := 10_000
  const MIN_OPACITY: real := 0.1
  const MAX_OPACITY: real := 1.0

  /** Window placement and state. Opacity is a real number: the model does not
      follow `f64` rounding. */
  datatype WindowConfig = WindowConfig(
    x: I32,
    y: I32,
    width: I32,
    height: I32,
    monitor: I32,
    alwaysOnTop: bool,
    opacity: real,
    locked: bool)

  /** Human-readable shortcut per global action. */
  datatype HotkeyConfig = HotkeyConfig(
    toggleOnTop: string,
    toggleLocked: string,
    opacityUp: string,
    opacityDown: string,
    toggleVisibility: string)

  datatype AppConfig = AppConfig(
    window: WindowConfig,
    lastUrl: Option<string>,
    recentUrls: Option<seq<string>>,
    audioDeviceId: Option<string>,
    launchAtStartup: bool,
    hotkeys: HotkeyConfig,
    homeUrl: string,
    firstRun: bool)

  /** Width and height within the size clamp, opacity within the opacity clamp. */
  predicate WindowWithinBounds(w: WindowConfig) {
    && MIN_WINDOW_SIZE <= w.width <= MAX_WINDOW_SIZE
    && MIN_WINDOW_SIZE <= w.height <= MAX_WINDOW_SIZE
    && MIN_OPACITY <= w.opacity <= MAX_OPACITY
    && w.monitor >= 0
  }

  function DefaultWindowConfig(): (w: WindowConfig)
    ensures WindowWithinBounds(w)
  {
    WindowConfig(
      x := 100, y := 100, width := 800, height := 450, monitor := 0,
      alwaysOnTop := true, opacity := 1.0, locked := false)
  }

  /** Every default shortcut is Alt+Shift plus the action's key. */
  function DefaultHotkeyConfig(): (h: HotkeyConfig)
  {
    HotkeyConfig(
      toggleOnTop := "Alt+Shift+T",
      toggleLocked := "Alt+Shift+D",
      opacityUp := "Alt+Shift+Up",
      opacityDown := "Alt+Shift+Down",
      toggleVisibility := "Alt+Shift+H")
  }

  function DefaultAppConfig(): (c: AppConfig)
    ensures WindowWithinBounds(c.window)
    ensures c.recentUrls == Some([]) && c.lastUrl == None
    ensures c.homeUrl == DEFAULT_HOME_URL && c.firstRun
    ensures c.audioDeviceId == None && !c.launchAtStartup
  {
    AppConfig(
      window := DefaultWindowConfig(),
      lastUrl := None,
      recentUrls := Some([]),
      audioDeviceId := None,
      launchAtStartup := false,
      hotkeys := DefaultHotkeyConfig(),
      homeUrl := DEFAULT_HOME_URL,
      firstRun := true)
  }

  /** The stored JSON document, field by field; a field may be absent. Nested
      records are taken as a whole. */
  datatype StoredConfig = StoredConfig(
    window: Option<WindowConfig>,
    lastUrl: Option<Option<string>>,
    recentUrls: Option<Option<seq<string>>>,
    audioDeviceId: Option<Option<string>>,
    launchAtStartup: Option<bool>,
    hotkeys: Option<HotkeyConfig>,
    homeUrl: Option<string>,
    firstRun: Option<bool>)

  /** Writing a configuration stores every field. */
  function Serialize(c: AppConfig): StoredConfig {
    StoredConfig(
      Some(c.window), Some(c.lastUrl), Some(c.recentUrls), Some(c.audioDeviceId),
      Some(c.launchAtStartup), Some(c.hotkeys), Some(c.homeUrl), Some(c.firstRun))
  }

  /** Reading a stored document: `window`, `launch_at_startup` and `hotkeys`
      are required; an absent `Option` field reads as `None`; an absent
      `home_url` reads as the default home page and an absent `first_run` as
      true. */
  function Deserialize(d: StoredConfig): (r: Result<AppConfig, string>)
    ensures r.Success? <==> d.window.Some? && d.launchAtStartup.Some? && d.hotkeys.Some?
    ensures r.Success? ==> r.value.homeUrl == d.homeUrl.GetOr(DEFAULT_HOME_URL)
    ensures r.Success? ==> r.value.firstRun == d.firstRun.GetOr(true)
    ensures r.Success? ==> r.value.lastUrl == d.lastUrl.GetOr(None)
    ensures r.Success? ==> r.value.recentUrls == d.recentUrls.GetOr(None)
    ensures r.Success? ==> r.value.window == d.window.value && r.value.hotkeys == d.hotkeys.value
    ensures r.Success? ==> r.value.launchAtStartup == d.launchAtStartup.value
    ensures r.Success? ==> r.value.audioDeviceId == d.audioDeviceId.GetOr(None)
    ensures r.Failure? ==>
      r.error == (if d.window.None? then "missing field `window`"
                  else if d.launchAtStartup.None? then "missing field `launch_at_startup`"
                  else "missing field `hotkeys`")
  {
    if d.window.None? then Failure("missing field `window`")
    else if d.launchAtStartup.None? then Failure("missing field `launch_at_startup`")
    else if d.hotkeys.None? then Failure("missing field `hotkeys`")
    else
      Success(AppConfig(
        window := d.window.value,
        lastUrl := d.lastUrl.GetOr(None),
        recentUrls := d.recentUrls.GetOr(None),
        audioDeviceId := d.audioDeviceId.GetOr(None),
        launchAtStartup := d.launchAtStartup.value,
        hotkeys := d.hotkeys.value,
        homeUrl := d.homeUrl.GetOr(DEFAULT_HOME_URL),
        firstRun := d.firstRun.GetOr(true)))
  }

  /** A configuration read back after being written is the same configuration. */
  lemma DeserializeSerialize(c: AppConfig)
    ensures Deserialize(Serialize(c)) == Success(c)
  {
  }

  /** A document written by an older version, without `home_url` and
      `first_run`, reads with the default home page and the first-run flag set. */
  lemma OlderDocumentGetsDefaults(d: StoredConfig)
    requires d.window.Some? && d.launchAtStartup.Some? && d.hotkeys.Some?
    requires d.homeUrl.None? && d.firstRun.None?
    ensures Deserialize(d).Success?
    ensures Deserialize(d).value.homeUrl == "https://www.google.com"
    ensures Deserialize(d).value.firstRun
  {
  }
}

=== FILE: dwell.dfy ===
/** The dwell timer behind the hotzone. Entering the hotzone arms a 100 ms
    timer that shows the control strip; leaving the hotzone for anywhere but
    the strip or the drag bar cancels it. Timers are identified by the
    number they were created with; `handle` is the one the page remembers
    (`dwellTimer`), `pending` all those that will still fire.

    As written, entering arms a new timer without cancelling the remembered
    one, so a pointer that goes hotzone, drag bar, hotzone, away leaves the
    first timer running and the strip appears after the pointer has left.
    The corrected handler cancels the remembered timer first; the overlay
    model uses that one. */
module Dwell {
  import opened Common

  /** Where the pointer went when it left the hotzone. */
  datatype Target = Strip | DragBar | Hotzone | Elsewhere

  datatype Timers = Timers(handle: Option<nat>, pending: set<nat>, next: nat, visible: bool)

  /** What the pointer and the clock do. A timer that was cancelled never
      fires. */
  datatype Step = Enter | Leave(to: Target) | Fire(id: nat)

  function Initial(): Timers {
    Timers(None, {}, 0, false)
  }

  /** Mouse enters the hotzone, as written: a fresh timer replaces the
      remembered handle; the old timer keeps running. */
  function EnterAsWritten(t: Timers): (r: Timers)
    ensures r.handle == Some(t.next) && r.next == t.next + 1
    ensures r.pending == t.pending + {t.next}
    ensures r.visible == t.visible
  {
    t.(handle := Some(t.next), pending := t.pending + {t.next}, next := t.next + 1)
  }

  /** Mouse enters the hotzone, corrected: the remembered timer is cancelled
      before the fresh one is armed. */
  function EnterCorrected(t: Timers): (r: Timers)
    ensures r.handle == Some(t.next) && r.next == t.next + 1
    ensures t.handle.None? ==> r.pending == t.pending + {t.next}
    ensures t.handle.Some? ==> r.pending == t.pending - {t.handle.value} + {t.next}
    ensures r.visible == t.visible
  {
    var kept := if t.handle.Some? then t.pending - {t.handle.value} else t.pending;
    t.(handle := Some(t.next), pending := kept + {t.next}, next := t.next + 1)
  }

  /** Mouse leaves the hotzone: nothing happens when it went into the strip
      or the drag bar; otherwise the remembered timer is cancelled. */
  function LeaveHotzone(t: Timers, to: Target): (r: Timers)
    ensures to == Strip || to == DragBar ==> r == t
    ensures to != Strip && to != DragBar ==> r.handle.None?
    ensures to != Strip && to != DragBar ==>
      r.pending == if t.handle.Some? then t.pending - {t.handle.value} else t.pending
    ensures r.visible == t.visible && r.next == t.next
  {
    if to == Strip || to == DragBar then t
    else if t.handle.Some? then t.(handle := None, pending := t.pending - {t.handle.value})
    else t
  }

  /** A pending timer fires and shows the strip; the remembered handle is
      left as it is. */
  function FireTimer(t: Timers, id: nat): (r: Timers)
    ensures id in t.pending ==> r.visible && r.pending == t.pending - {id}
    ensures id !in t.pending ==> r == t
    ensures r.handle == t.handle && r.next == t.next
  {
    if id in t.pending then t.(pending := t.pending - {id}, visible := true) else t
  }

  function StepWith(t: Timers, s: Step, corrected: bool): Timers {
    match s
    case Enter => if corrected then EnterCorrected(t) else EnterAsWritten(t)
    case Leave(to) => LeaveHotzone(t, to)
    case Fire(id) => FireTimer(t, id)
  }

  function Run(t: Timers, steps: seq<Step>, corrected: bool): Timers
    decreases |steps|
  {
    if steps == [] then t else Run(StepWith(t, steps[0], corrected), steps[1..], corrected)
  }

  /** The pointer goes hotzone, drag bar, hotzone, away. */
  function Excursion(): seq<Step> {
    [Enter, Leave(DragBar), Enter, Leave(Elsewhere)]
  }

  /** As written, the excursion ends with the pointer gone, nothing
      remembered, yet the first timer still pending; when it fires the strip
      shows. */
  lemma OrphanedTimerShowsStrip()
    ensures var t := Run(Initial(), Excursion(), false);
      && t.handle.None? && t.pending == {0} && !t.visible
      && FireTimer(t, 0).visible
  {
    var t1 := EnterAsWritten(Initial());
    var t2 := LeaveHotzone(t1, DragBar);
    var t3 := EnterAsWritten(t2);
    var t4 := LeaveHotzone(t3, Elsewhere);
    assert t3.pending == {0, 1};
    assert t4.pending == {0};
    assert Run(Initial(), Excursion(), false) == t4 by {
      assert Excursion()[1..] == [Leave(DragBar), Enter, Leave(Elsewhere)];
      assert Excursion()[1..][1..] == [Enter, Leave(Elsewhere)];
      assert Excursion()[1..][1..][1..] == [Leave(Elsewhere)];
    }
  }

  /** Only the remembered timer can be pending. */
  predicate Tracked(t: Timers) {
    forall id :: id in t.pending ==> t.handle == Some(id)
  }

  /** Every run of the corrected handlers keeps at most the remembered timer
      pending. */
  lemma {:induction false} CorrectedKeepsTracked(t: Timers, steps: seq<Step>)
    requires Tracked(t)
    ensures Tracked(Run(t, steps, true))
    decreases |steps|
  {
    if steps != [] {
      var u := StepWith(t, steps[0], true);
      assert Tracked(u) by {
        match steps[0]
        case Enter =>
        case Leave(to) =>
        case Fire(id) =>
      }
      CorrectedKeepsTracked(u, steps[1..]);
    }
  }

  /** With the correction, whatever the pointer did before, leaving the
      hotzone for elsewhere leaves no dwell timer pending, so the strip
      cannot appear afterwards on its own. */
  lemma LeavingCancelsDwell(steps: seq<Step>)
    ensures Run(Initial(), steps + [Leave(Elsewhere)], true).pending == {}
  {
    CorrectedKeepsTracked(Initial(), steps);
    RunSnoc(Initial(), steps, Leave(Elsewhere), true);
  }

  lemma {:induction false} RunSnoc(t: Timers, steps: seq<Step>, s: Step, corrected: bool)
    ensures Run(t, steps + [s], corrected) == StepWith(Run(t, steps, corrected), s, corrected)
    decreases |steps|
  {
    if steps == [] {
      assert [s][1..] == [];
    } else {
      assert (steps + [s])[1..] == steps[1..] + [s];
      RunSnoc(StepWith(t, steps[0], corrected), steps[1..], s, corrected);
    }
  }
}

=== FILE: history.dfy ===
/** The recent-URL list: at most ten entries, most recent first, no entry
    twice. Two operations shape it: the start-up clean-up keeps the first
    occurrence of every entry and stops at ten, and visiting a page moves
    that page to the front. */
module History {

  const MAX_RECENT: nat := 10

  predicate NoDup(s: seq<string>) {
    forall i, j :: 0 <= i < j < |s| ==> s[i] != s[j]
  }

  /** The first `n` entries (all of them when there are fewer). */
  function Take(s: seq<string>, n: nat): (r: seq<string>)
    ensures |r| <= n && r <= s
    ensures |s| <= n ==> r == s
    ensures |s| > n ==> |r| == n
  {
    if |s| <= n then s else s[..n]
  }

  /** The first occurrence of every entry, in order. Defined from the back,
      the way a single pass with a "seen" set builds it. */
  function Dedup(s: seq<string>): (d: seq<string>)
    ensures NoDup(d)
    ensures forall x :: x in d <==> x in s
    ensures |d| <= |s|
  {
    if s == [] then []
    else
      var d := Dedup(s[..|s| - 1]);
      var x := s[|s| - 1];
      assert forall y :: y in s <==> y in s[..|s| - 1] || y == x by {
        assert s == s[..|s| - 1] + [x];
      }
      if x in d then d else d + [x]
  }

  /** One more entry is kept exactly when it was not met before. */
  lemma DedupSnoc(s: seq<string>, x: string)
    ensures Dedup(s + [x]) == if x in Dedup(s) then Dedup(s) else Dedup(s) + [x]
  {
    assert (s + [x])[..|s|] == s;
  }

  /** A prefix of length `n` is what taking `n` entries gives. */
  lemma TakePrefix(a: seq<string>, b: seq<string>, n: nat)
    requires a <= b && |a| == n
    ensures Take(b, n) == a
  {
  }

  /** Extending the input only extends the output: the entries chosen from a
      prefix stay, in place, whatever follows. */
  lemma {:induction false} DedupPrefix(a: seq<string>, b: seq<string>)
    requires a <= b
    ensures Dedup(a) <= Dedup(b)
    decreases |b|
  {
    if |a| < |b| {
      assert a <= b[..|b| - 1];
      DedupPrefix(a, b[..|b| - 1]);
    } else {
      assert a == b;
    }
  }

  /** A list without duplicates is left as it is. */
  lemma {:induction false} DedupKeepsDistinct(s: seq<string>)
    requires NoDup(s)
    ensures Dedup(s) == s
  {
    if s != [] {
      DedupKeepsDistinct(s[..|s| - 1]);
      assert s[|s| - 1] !in s[..|s| - 1];
      assert s[..|s| - 1] + [s[|s| - 1]] == s;
    }
  }

  /** Cleaning twice is cleaning once. */
  lemma DedupIdempotent(s: seq<string>)
    ensures Dedup(Dedup(s)) == Dedup(s)
  {
    DedupKeepsDistinct(Dedup(s));
  }

  /** Whether `r` is `s` with some entries left out, the rest in order. */
  predicate IsSubsequence(r: seq<string>, s: seq<string>)
    decreases |s|
  {
    r == [] || (s != [] && if r[0] == s[0] then IsSubsequence(r[1..], s[1..]) else IsSubsequence(r, s[1..]))
  }

  /** `s` without any occurrence of `x`, order kept (`Vec::retain`): every
      other entry stays, as often as it occurs, in its order. */
  function Remove(s: seq<string>, x: string): (r: seq<string>)
    ensures x !in r
    ensures forall y :: y in r <==> y in s && y != x
    ensures multiset(r) == multiset(s)[x := 0]
    ensures IsSubsequence(r, s)
    ensures |r| <= |s|
    ensures x !in s ==> r == s
  {
    if s == [] then []
    else
      var rest := Remove(s[1..], x);
      assert s == [s[0]] + s[1..];
      if s[0] == x then
        assert rest == [] || rest[0] != s[0];
        rest
      else
        assert ([s[0]] + rest)[1..] == rest;
        [s[0]] + rest
  }

  lemma {:induction false} RemoveKeepsDistinct(s: seq<string>, x: string)
    requires NoDup(s)
    ensures NoDup(Remove(s, x))
  {
    if s != [] {
      RemoveKeepsDistinct(s[1..], x);
      assert s[0] !in s[1..];
    }
  }

  lemma NoDupPrefix(s: seq<string>, n: nat)
    requires NoDup(s) && n <= |s|
    ensures NoDup(s[..n])
  {
  }

  /** The list after visiting `url`: every earlier `url` removed, `url` put in
      front, and the list cut to ten. */
  function PushRecent(recent: seq<string>, url: string): (r: seq<string>) {
    Take([url] + Remove(recent, url), MAX_RECENT)
  }

  /** The visited page heads the list, appears nowhere else, the list holds
      at most ten entries, and behind the head come the other entries in
      their previous order. */
  lemma PushRecentShape(recent: seq<string>, url: string)
    ensures var r := PushRecent(recent, url);
      && 1 <= |r| <= MAX_RECENT
      && r[0] == url
      && url !in r[1..]
      && r[1..] <= Remove(recent, url)
      && |r| == if |Remove(recent, url)| < MAX_RECENT then |Remove(recent, url)| + 1 else MAX_RECENT
  {
    var r := PushRecent(recent, url);
    var full := [url] + Remove(recent, url);
    assert r <= full;
    assert r[1..] <= full[1..];
    assert full[1..] == Remove(recent, url);
  }

  /** A visit adds no entry other than the visited page; the order of the
      entries kept is stated by PushRecentShape. */
  lemma PushRecentEntries(recent: seq<string>, url: string)
    ensures forall y :: y in PushRecent(recent, url) ==> y == url || y in recent
  {
    var full := [url] + Remove(recent, url);
    assert PushRecent(recent, url) <= full;
  }

  /** A list without duplicates stays without duplicates. */
  lemma PushRecentKeepsDistinct(recent: seq<string>, url: string)
    requires NoDup(recent)
    ensures NoDup(PushRecent(recent, url))
  {
    RemoveKeepsDistinct(recent, url);
    var rest := Remove(recent, url);
    var full := [url] + rest;
    assert NoDup(full) by {
      forall i, j | 0 <= i < j < |full|
        ensures full[i] != full[j]
      {
        if i == 0 {
          assert full[j] == rest[j - 1];
        } else {
          assert full[i] == rest[i - 1] && full[j] == rest[j - 1];
        }
      }
    }
    NoDupPrefix(full, |PushRecent(recent, url)|);
  }

  /** Visiting the page already at the head of the list changes nothing. */
  lemma PushRecentIdempotent(recent: seq<string>, url: string)
    requires NoDup(recent)
    ensures PushRecent(PushRecent(recent, url), url) == PushRecent(recent, url)
  {
    var r := PushRecent(recent, url);
    PushRecentShape(recent, url);
    PushRecentKeepsDistinct(recent, url);
    assert r == [r[0]] + r[1..];
    assert Remove(r, url) == r[1..] by {
      RemovesHead(r);
    }
  }

  /** Removing the head of a list that holds it only there leaves the tail. */
  lemma RemovesHead(s: seq<string>)
    requires |s| >= 1 && s[0] !in s[1..]
    ensures Remove(s, s[0]) == s[1..]
  {
  }
}

=== FILE: host.dfy ===
/** The host's commands and hotkey actions over the shared configuration and
    the main window. The window is reduced to the state the commands touch
    (always-on-top, ignoring the cursor, opacity, visibility); events the host
    emits and scripts it evaluates in the page are recorded in order. */
module Host {
  import opened Common
  import opened Text
  import opened Config
  import opened Urls
  import opened History
  import opened Hotkeys
  import opened Sanitize
  import opened Messages

  /** The opacity step of the opacity-up and opacity-down hotkeys. */
  const OPACITY_STEP: real := 0.05

  /** The page opened at start-up: the stored last URL if it still passes the
      check, otherwise the home URL if it does, otherwise the built-in home. */
  function StartupUrl(c: AppConfig, parse: UrlParser): (u: string)
    ensures c.lastUrl.Some? && NormalizeUrl(c.lastUrl.value, parse).Success? ==>
      u == NormalizeUrl(c.lastUrl.value, parse).value
    ensures (c.lastUrl.None? || NormalizeUrl(c.lastUrl.value, parse).Failure?) ==> u == HomeTarget(c, parse)
  {
    if c.lastUrl.Some? && NormalizeUrl(c.lastUrl.value, parse).Success? then
      NormalizeUrl(c.lastUrl.value, parse).value
    else
      HomeTarget(c, parse)
  }

  /** The page "go home" opens: the home URL if it passes the check,
      otherwise the built-in home. */
  function HomeTarget(c: AppConfig, parse: UrlParser): (u: string)
    ensures NormalizeUrl(c.homeUrl, parse).Success? ==> u == NormalizeUrl(c.homeUrl, parse).value
    ensures NormalizeUrl(c.homeUrl, parse).Failure? ==> u == DEFAULT_HOME_URL
  {
    match NormalizeUrl(c.homeUrl, parse)
    case Success(u) => u
    case Failure(_) => DEFAULT_HOME_URL
  }

  /** Whatever is stored, the page opened at start-up is an http or https
      address or the built-in home. */
  lemma StartupUrlIsWeb(c: AppConfig, parse: UrlParser)
    requires c.lastUrl.Some? ==> SerializesWithScheme(parse, CandidateOf(c.lastUrl.value))
    requires SerializesWithScheme(parse, CandidateOf(c.homeUrl))
    ensures var u := StartupUrl(c, parse);
      StartsWith(u, "http://") || StartsWith(u, "https://") || u == DEFAULT_HOME_URL
  {
    if c.lastUrl.Some? && NormalizeUrl(c.lastUrl.value, parse).Success? {
      AcceptedIsHttp(c.lastUrl.value, parse);
    } else if NormalizeUrl(c.homeUrl, parse).Success? {
      AcceptedIsHttp(c.homeUrl, parse);
    }
  }

  /** The configuration after visiting `url`: it becomes the last URL and
      moves to the front of the recent list. */
  function Visited(c: AppConfig, url: string): (r: AppConfig)
    ensures r.window == c.window && r.hotkeys == c.hotkeys && r.homeUrl == c.homeUrl
    ensures r.lastUrl == Some(url)
    ensures r.recentUrls.Some? && |r.recentUrls.value| >= 1 && r.recentUrls.value[0] == url
  {
    PushRecentShape(c.recentUrls.GetOr([]), url);
    c.(lastUrl := Some(url), recentUrls := Some(PushRecent(c.recentUrls.GetOr([]), url)))
  }

  /** Visiting keeps a clean configuration clean. */
  lemma VisitedKeepsSanitized(c: AppConfig, url: string)
    requires Sanitized(c)
    ensures Sanitized(Visited(c, url))
  {
    PushRecentShape(c.recentUrls.value, url);
    PushRecentKeepsDistinct(c.recentUrls.value, url);
  }

  /** After a page is visited, the next start-up reopens it (when its
      normalised form passes the check again). */
  lemma RestartResumesVisit(c: AppConfig, raw: string, parse: UrlParser)
    requires NormalizeUrl(raw, parse).Success? && ParsesStably(raw, parse)
    ensures StartupUrl(Visited(c, NormalizeUrl(raw, parse).value), parse) == NormalizeUrl(raw, parse).value
  {
    NormalizedIsFixed(raw, parse);
  }

  /** After "go home", the next start-up opens the page "go home" opened. */
  lemma RestartAfterHome(c: AppConfig, parse: UrlParser)
    ensures StartupUrl(c.(lastUrl := None), parse) == HomeTarget(c, parse)
  {
  }

  /** `c` with the window moved to (`x`, `y`) and resized to the clamped
      width and height. */
  function GeometryUpdated(c: AppConfig, x: I32, y: I32, width: I32, height: I32): (r: AppConfig)
    ensures r.window.x == x && r.window.y == y
    ensures MIN_WINDOW_SIZE <= r.window.width <= MAX_WINDOW_SIZE
    ensures MIN_WINDOW_SIZE <= r.window.height <= MAX_WINDOW_SIZE
    ensures r.window.width == ClampI32(width, MIN_WINDOW_SIZE, MAX_WINDOW_SIZE)
    ensures r.window.height == ClampI32(height, MIN_WINDOW_SIZE, MAX_WINDOW_SIZE)
    ensures MIN_WINDOW_SIZE <= width <= MAX_WINDOW_SIZE ==> r.window.width == width
    ensures MIN_WINDOW_SIZE <= height <= MAX_WINDOW_SIZE ==> r.window.height == height
    ensures r.window.opacity == c.window.opacity && r.window.monitor == c.window.monitor
    ensures r.window.locked == c.window.locked && r.window.alwaysOnTop == c.window.alwaysOnTop
    ensures r.(window := c.window) == c
  {
    c.(window := c.window.(
      x := x, y := y,
      width := ClampI32(width, MIN_WINDOW_SIZE, MAX_WINDOW_SIZE),
      height := ClampI32(height, MIN_WINDOW_SIZE, MAX_WINDOW_SIZE)))
  }

  /** The geometry test: a 100 by 25000 window at (123, 456) is stored at
      (123, 456) with size 200 by 10000. */
  lemma GeometryClampExample(x: I32, y: I32, width: I32, height: I32)
    requires x == 123 && y == 456 && width == 100 && height == 25_000
    ensures var w := GeometryUpdated(DefaultAppConfig(), x, y, width, height).window;
      w.x == 123 && w.y == 456 && w.width == MIN_WINDOW_SIZE && w.height == MAX_WINDOW_SIZE
  {
  }

  /** One opacity step up and one down restores an opacity that the upper
      clamp did not cut, and the other way round. */
  lemma OpacityStepUndone(o: real)
    requires MIN_OPACITY <= o <= MAX_OPACITY - OPACITY_STEP
    ensures ClampReal(ClampReal(o + OPACITY_STEP, MIN_OPACITY, MAX_OPACITY) - OPACITY_STEP, MIN_OPACITY, MAX_OPACITY) == o
  {
  }

  lemma OpacityStepDownUndone(o: real)
    requires MIN_OPACITY + OPACITY_STEP <= o <= MAX_OPACITY
    ensures ClampReal(ClampReal(o - OPACITY_STEP, MIN_OPACITY, MAX_OPACITY) + OPACITY_STEP, MIN_OPACITY, MAX_OPACITY) == o
  {
  }

  /** The actions a global shortcut can trigger. */
  datatype Action = ToggleOnTopAction | ToggleLockedAction | OpacityUpAction | OpacityDownAction | ToggleVisibilityAction

  /** The shortcuts registered at start-up, in registration order: each
      hotkey text that parses is bound to its action, the others are skipped. */
  function Bindings(h: HotkeyConfig): (b: seq<(Shortcut, Action)>)
    ensures |b| <= 5
  {
    Bind(h, AllActions(), ShortcutOf)
  }

  /** The actions in registration order. */
  function AllActions(): seq<Action> {
    [ToggleOnTopAction, ToggleLockedAction, OpacityUpAction, OpacityDownAction, ToggleVisibilityAction]
  }

  /** Registration over a list of actions, with the shortcut reader as a
      parameter. */
  function Bind(h: HotkeyConfig, actions: seq<Action>, read: string -> Option<Shortcut>): (b: seq<(Shortcut, Action)>)
    ensures |b| <= |actions|
    ensures forall i :: 0 <= i < |b| ==> read(TextOf(h, b[i].1)) == Some(b[i].0)
    ensures forall i :: 0 <= i < |b| ==> b[i].1 in actions
  {
    if actions == [] then []
    else
      var rest := Bind(h, actions[1..], read);
      match read(TextOf(h, actions[0]))
      case None => rest
      case Some(s) => [(s, actions[0])] + rest
  }

  /** Whether some registered shortcut runs action `a`. */
  predicate IsBound(b: seq<(Shortcut, Action)>, a: Action) {
    exists i :: 0 <= i < |b| && b[i].1 == a
  }

  /** The hotkey text configured for an action. */
  function TextOf(h: HotkeyConfig, a: Action): string {
    match a
    case ToggleOnTopAction => h.toggleOnTop
    case ToggleLockedAction => h.toggleLocked
    case OpacityUpAction => h.opacityUp
    case OpacityDownAction => h.opacityDown
    case ToggleVisibilityAction => h.toggleVisibility
  }

  /** The key each action's default shortcut uses with Alt and Shift. */
  function DefaultKey(a: Action): KeyCode {
    match a
    case ToggleOnTopAction => KeyT
    case ToggleLockedAction => KeyD
    case OpacityUpAction => ArrowUp
    case OpacityDownAction => ArrowDown
    case ToggleVisibilityAction => KeyH
  }

  lemma DefaultTextSpelling(a: Action)
    ensures TextOf(DefaultHotkeyConfig(), a) == "Alt" + "+" + "Shift" + "+" + KeyName(DefaultKey(a))
  {
  }

  /** Every action's default shortcut reads as Alt and Shift held with the
      action's key: T, D, the up and down arrows, and H. */
  lemma DefaultBinding(a: Action)
    ensures ShortcutOf(TextOf(DefaultHotkeyConfig(), a)) == Some(Shortcut({Alt, Shift}, DefaultKey(a)))
  {
    DefaultTextSpelling(a);
    KeyNameReads(DefaultKey(a));
    DefaultShortcut(KeyName(DefaultKey(a)), DefaultKey(a));
  }

  /** An action in the list is bound exactly when its hotkey text reads as a
      shortcut. */
  lemma {:induction false} BoundIffReads(h: HotkeyConfig, actions: seq<Action>, read: string -> Option<Shortcut>, a: Action)
    requires a in actions
    ensures IsBound(Bind(h, actions, read), a) <==> read(TextOf(h, a)).Some?
  {
    var b := Bind(h, actions, read);
    if read(TextOf(h, a)).None? {
      forall i | 0 <= i < |b|
        ensures b[i].1 != a
      {
        assert read(TextOf(h, b[i].1)) == Some(b[i].0);
      }
    } else if actions[0] == a {
      assert b == [(read(TextOf(h, a)).value, a)] + Bind(h, actions[1..], read);
      assert 0 < |b| && b[0].1 == a;
      assert IsBound(b, a);
    } else {
      BoundIffReads(h, actions[1..], read, a);
      var rest := Bind(h, actions[1..], read);
      var i :| 0 <= i < |rest| && rest[i].1 == a;
      if read(TextOf(h, actions[0])).Some? {
        assert b == [(read(TextOf(h, actions[0])).value, actions[0])] + rest;
        assert b[i + 1].1 == a;
        assert IsBound(b, a);
      } else {
        assert b == rest;
      }
    }
  }

  /** Every action is registered exactly when its hotkey text parses. */
  lemma BoundIffParses(h: HotkeyConfig, a: Action)
    ensures IsBound(Bindings(h), a) <==> ShortcutOf(TextOf(h, a)).Some?
  {
    assert a in AllActions() by {
      match a
      case ToggleOnTopAction => assert AllActions()[0] == a;
      case ToggleLockedAction => assert AllActions()[1] == a;
      case OpacityUpAction => assert AllActions()[2] == a;
      case OpacityDownAction => assert AllActions()[3] == a;
      case ToggleVisibilityAction => assert AllActions()[4] == a;
    }
    BoundIffReads(h, AllActions(), ShortcutOf, a);
  }

  /** A pushed setting keeps a clean configuration clean, provided a pushed
      opacity is within the clamp. */
  lemma PushKeepsSanitized(c: AppConfig, p: Push)
    requires Sanitized(c)
    requires p.Opacity? ==> MIN_OPACITY <= p.opacity <= MAX_OPACITY
    ensures Sanitized(WithPush(c, p))
  {
  }

  /** The tray menu's entries. */
  datatype TrayItem =
    | SettingsItem | GoHomeItem | ToggleTopItem | ToggleLockItem | ExitLockItem | ShowHideItem | QuitItem

  /** Everything about the host a command can change: the shared
      configuration, the window's state, and what was sent to the page. */
  datatype HostView = HostView(
    config: AppConfig, onTop: bool, clickThrough: bool, windowOpacity: real,
    visible: bool, emitted: seq<Event>, evaluated: seq<Script>)

  /** The main window and the shared configuration. */
  class HostState {
    const parse: UrlParser
    var config: AppConfig
    var onTop: bool
    var clickThrough: bool
    var windowOpacity: real
    var visible: bool
    var emitted: seq<Event>
    var evaluated: seq<Script>

    /** The configuration stays sanitised and the window's opacity within
        the clamp. */
    predicate Valid()
      reads this
    {
      Sanitized(config) && MIN_OPACITY <= windowOpacity <= MAX_OPACITY
    }

    function View(): HostView
      reads this
    {
      HostView(config, onTop, clickThrough, windowOpacity, visible, emitted, evaluated)
    }

    /** The window as start-up leaves it for the loaded configuration `c`:
        its stored always-on-top and opacity applied, the cursor not ignored,
        and the start-up page being opened. */
    constructor (c: AppConfig, parse: UrlParser)
      requires Sanitized(c)
      ensures this.parse == parse && config == c
      ensures onTop == c.window.alwaysOnTop && windowOpacity == c.window.opacity
      ensures !clickThrough && visible
      ensures emitted == [] && evaluated == [Load(StartupUrl(c, parse))]
      ensures Valid()
    {
      this.parse := parse;
      config := c;
      onTop := c.window.alwaysOnTop;
      windowOpacity := c.window.opacity;
      clickThrough := false;
      visible := true;
      emitted := [];
      evaluated := [Load(StartupUrl(c, parse))];
    }

    method GetConfig() returns (c: AppConfig)
      requires Valid()
      ensures c == config && Sanitized(c)
    {
      c := config;
    }

    /** Replace the configuration by the sanitised form of `c` and announce it. */
    method UpdateConfig(c: AppConfig)
      requires Valid()
      modifies this`config, this`emitted
      ensures config == SanitizedConfigOf(c, parse)
      ensures emitted == old(emitted) + [ConfigChanged(config)]
      ensures Valid()
    {
      var r := SanitizeConfig(c, parse);
      SanitizedConfigIsSanitized(c, parse);
      Install(r);
    }

    /** Store a clean configuration and announce it. */
    method Install(r: AppConfig)
      requires Valid() && Sanitized(r)
      modifies this`config, this`emitted
      ensures config == r && emitted == old(emitted) + [ConfigChanged(r)]
      ensures Valid()
    {
      config := r;
      emitted := emitted + [ConfigChanged(r)];
    }

    /** Load `url` in the window if it passes the check. */
    method Navigate(url: string) returns (r: Result<(), string>)
      requires Valid()
      modifies this`evaluated
      ensures NormalizeUrl(url, parse).Failure? ==>
        r == Failure(NormalizeUrl(url, parse).error) && evaluated == old(evaluated)
      ensures NormalizeUrl(url, parse).Success? ==>
        r.Success? && evaluated == old(evaluated) + [Load(NormalizeUrl(url, parse).value)]
    {
      var n := NormalizeUrl(url, parse);
      if n.Failure? {
        return Failure(n.error);
      }
      evaluated := evaluated + [Load(n.value)];
      r := Success(());
    }

    /** Record a visit: the checked URL becomes the last URL and moves to the
        front of the recent list, which is cut to ten entries. */
    method SetUrl(url: string) returns (r: Result<(), string>)
      requires Valid()
      modifies this`config
      ensures NormalizeUrl(url, parse).Failure? ==>
        r == Failure(NormalizeUrl(url, parse).error) && config == old(config)
      ensures NormalizeUrl(url, parse).Success? ==>
        r.Success? && config == Visited(old(config), NormalizeUrl(url, parse).value)
      ensures Valid()
    {
      var n := NormalizeUrl(url, parse);
      if n.Failure? {
        return Failure(n.error);
      }
      var u := n.value;
      var recent := config.recentUrls.GetOr([]);
      recent := Remove(recent, u);
      recent := [u] + recent;
      if |recent| > MAX_RECENT {
        recent := recent[..MAX_RECENT];
      }
      VisitedKeepsSanitized(config, u);
      config := config.(lastUrl := Some(u), recentUrls := Some(recent));
      r := Success(());
    }

    /** Move and resize the stored window geometry. */
    method UpdateWindowGeometry(x: I32, y: I32, width: I32, height: I32)
      requires Valid()
      modifies this`config
      ensures config == GeometryUpdated(old(config), x, y, width, height)
      ensures Valid()
    {
      var w := config.window;
      w := w.(x := x);
      w := w.(y := y);
      w := w.(width := ClampI32(width, MIN_WINDOW_SIZE, MAX_WINDOW_SIZE));
      w := w.(height := ClampI32(height, MIN_WINDOW_SIZE, MAX_WINDOW_SIZE));
      config := config.(window := w);
    }

    /** Flip always-on-top, store it and announce it; from a hotkey or the
        tray the overlay is also told directly. */
    method ToggleAlwaysOnTop(fromShortcut: bool) returns (newValue: bool)
      requires Valid()
      modifies this`onTop, this`config, this`emitted, this`evaluated
      ensures newValue == !old(onTop) && onTop == newValue
      ensures config == WithPush(old(config), AlwaysOnTop(newValue))
      ensures emitted == old(emitted) + [SettingChanged(AlwaysOnTop(newValue))]
      ensures evaluated == old(evaluated) + if fromShortcut then [UpdateOverlay(AlwaysOnTop(newValue))] else []
      ensures Valid()
    {
      newValue := !onTop;
      onTop := newValue;
      PushKeepsSanitized(config, AlwaysOnTop(newValue));
      config := WithPush(config, AlwaysOnTop(newValue));
      emitted := emitted + [SettingChanged(AlwaysOnTop(newValue))];
      if fromShortcut {
        evaluated := evaluated + [UpdateOverlay(AlwaysOnTop(newValue))];
      }
    }

    /** Set the window's opacity, clamped to [0.1, 1.0], store it and
        announce it. */
    method SetOpacity(opacity: real)
      requires Valid()
      modifies this`windowOpacity, this`config, this`emitted
      ensures windowOpacity == ClampReal(opacity, MIN_OPACITY, MAX_OPACITY)
      ensures config == WithPush(old(config), Opacity(windowOpacity))
      ensures emitted == old(emitted) + [SettingChanged(Opacity(windowOpacity))]
      ensures Valid()
    {
      var op := ClampReal(opacity, MIN_OPACITY, MAX_OPACITY);
      windowOpacity := op;
      config := WithPush(config, Opacity(op));
      emitted := emitted + [SettingChanged(Opacity(op))];
    }

    /** Set only the window's opacity (the `set_opacity_live` command),
        leaving the stored configuration as it is. */
    method SetOpacityLive(opacity: real)
      requires Valid()
      modifies this`windowOpacity
      ensures windowOpacity == ClampReal(opacity, MIN_OPACITY, MAX_OPACITY)
      ensures Valid()
    {
      windowOpacity := ClampReal(opacity, MIN_OPACITY, MAX_OPACITY);
    }

    /** The opacity hotkeys: the stored opacity moved by `delta` and clamped. */
    method OpacityChange(delta: real) returns (op: real)
      requires Valid()
      modifies this`windowOpacity, this`config, this`emitted, this`evaluated
      ensures op == ClampReal(old(config).window.opacity + delta, MIN_OPACITY, MAX_OPACITY)
      ensures windowOpacity == op && config == WithPush(old(config), Opacity(op))
      ensures emitted == old(emitted) + [SettingChanged(Opacity(op))]
      ensures evaluated == old(evaluated) + [UpdateOverlay(Opacity(op))]
      ensures Valid()
    {
      op := ClampReal(config.window.opacity + delta, MIN_OPACITY, MAX_OPACITY);
      config := WithPush(config, Opacity(op));
      windowOpacity := op;
      emitted := emitted + [SettingChanged(Opacity(op))];
      evaluated := evaluated + [UpdateOverlay(Opacity(op))];
    }

    /** Flip the stored click-through flag and make the window ignore the
        cursor exactly when it is set. */
    method ToggleLocked(fromShortcut: bool) returns (newValue: bool)
      requires Valid()
      modifies this`clickThrough, this`config, this`emitted, this`evaluated
      ensures newValue == !old(config).window.locked && clickThrough == newValue
      ensures config == WithPush(old(config), Locked(newValue))
      ensures emitted == old(emitted) + [SettingChanged(Locked(newValue))]
      ensures evaluated == old(evaluated) + if fromShortcut then [UpdateOverlay(Locked(newValue))] else []
      ensures Valid()
    {
      newValue := !config.window.locked;
      config := WithPush(config, Locked(newValue));
      clickThrough := newValue;
      emitted := emitted + [SettingChanged(Locked(newValue))];
      if fromShortcut {
        evaluated := evaluated + [UpdateOverlay(Locked(newValue))];
      }
    }

    /** Leave click-through mode if it is on; otherwise do nothing at all. */
    method ExitClickThrough(fromShortcut: bool)
      requires Valid()
      modifies this`clickThrough, this`config, this`emitted, this`evaluated
      ensures !config.window.locked
      ensures !old(config).window.locked ==>
        config == old(config) && clickThrough == old(clickThrough)
        && emitted == old(emitted) && evaluated == old(evaluated)
      ensures old(config).window.locked ==>
        && config == WithPush(old(config), Locked(false)) && !clickThrough
        && emitted == old(emitted) + [SettingChanged(Locked(false))]
        && evaluated == old(evaluated) + if fromShortcut then [UpdateOverlay(Locked(false))] else []
      ensures Valid()
    {
      if config.window.locked {
        config := WithPush(config, Locked(false));
        clickThrough := false;
        emitted := emitted + [SettingChanged(Locked(false))];
        if fromShortcut {
          evaluated := evaluated + [UpdateOverlay(Locked(false))];
        }
      }
    }

    /** Forget the last URL, stop the current load and open the home page. */
    method NavigateHome() returns (home: string)
      requires Valid()
      modifies this`config, this`evaluated
      ensures config == old(config).(lastUrl := None)
      ensures home == HomeTarget(old(config), parse)
      ensures evaluated == old(evaluated) + [Stop, Load(home)]
      ensures Valid()
    {
      config := config.(lastUrl := None);
      home := HomeTarget(config, parse);
      evaluated := evaluated + [Stop, Load(home)];
    }

    /** Show the window if it is hidden, hide it otherwise. */
    method ToggleVisibility()
      requires Valid()
      modifies this`visible
      ensures visible == !old(visible)
      ensures Valid()
    {
      visible := !visible;
    }

    /** The tray's "Settings" entry: show the window and open the settings. */
    method OpenSettingsFromTray()
      requires Valid()
      modifies this`visible, this`emitted, this`evaluated
      ensures visible
      ensures emitted == old(emitted) + [OpenSettings]
      ensures evaluated == old(evaluated) + [OpenSettingsScript]
      ensures Valid()
    {
      visible := true;
      emitted := emitted + [OpenSettings];
      evaluated := evaluated + [OpenSettingsScript];
    }

    /** A tray menu entry runs its action; quitting ends the program and
        changes nothing here. */
    method OnTrayItem(item: TrayItem)
      requires Valid()
      modifies this
      ensures var v := old(View());
        View() == match item
          case SettingsItem =>
            v.(visible := true, emitted := v.emitted + [OpenSettings],
               evaluated := v.evaluated + [OpenSettingsScript])
          case GoHomeItem =>
            v.(config := v.config.(lastUrl := None),
               evaluated := v.evaluated + [Stop, Load(HomeTarget(v.config, parse))])
          case ToggleTopItem =>
            var on := !v.onTop;
            v.(onTop := on, config := WithPush(v.config, AlwaysOnTop(on)),
               emitted := v.emitted + [SettingChanged(AlwaysOnTop(on))],
               evaluated := v.evaluated + [UpdateOverlay(AlwaysOnTop(on))])
          case ToggleLockItem =>
            var locked := !v.config.window.locked;
            v.(clickThrough := locked, config := WithPush(v.config, Locked(locked)),
               emitted := v.emitted + [SettingChanged(Locked(locked))],
               evaluated := v.evaluated + [UpdateOverlay(Locked(locked))])
          case ExitLockItem =>
            if !v.config.window.locked then v
            else
              v.(clickThrough := false, config := WithPush(v.config, Locked(false)),
                 emitted := v.emitted + [SettingChanged(Locked(false))],
                 evaluated := v.evaluated + [UpdateOverlay(Locked(false))])
          case ShowHideItem => v.(visible := !v.visible)
          case QuitItem => v
      ensures Valid()
    {
      match item
      case SettingsItem => OpenSettingsFromTray();
      case GoHomeItem =>
        var _ := NavigateHome();
      case ToggleTopItem =>
        var _ := ToggleAlwaysOnTop(true);
      case ToggleLockItem =>
        var _ := ToggleLocked(true);
      case ExitLockItem => ExitClickThrough(true);
      case ShowHideItem => ToggleVisibility();
      case QuitItem =>
    }

    /** A pressed global shortcut runs its action. */
    method OnShortcut(a: Action)
      requires Valid()
      modifies this
      ensures var v := old(View());
        View() == match a
          case ToggleOnTopAction =>
            var on := !v.onTop;
            v.(onTop := on, config := WithPush(v.config, AlwaysOnTop(on)),
               emitted := v.emitted + [SettingChanged(AlwaysOnTop(on))],
               evaluated := v.evaluated + [UpdateOverlay(AlwaysOnTop(on))])
          case ToggleLockedAction =>
            var locked := !v.config.window.locked;
            v.(clickThrough := locked, config := WithPush(v.config, Locked(locked)),
               emitted := v.emitted + [SettingChanged(Locked(locked))],
               evaluated := v.evaluated + [UpdateOverlay(Locked(locked))])
          case OpacityUpAction =>
            var op := ClampReal(v.config.window.opacity + OPACITY_STEP, MIN_OPACITY, MAX_OPACITY);
            v.(windowOpacity := op, config := WithPush(v.config, Opacity(op)),
               emitted := v.emitted + [SettingChanged(Opacity(op))],
               evaluated := v.evaluated + [UpdateOverlay(Opacity(op))])
          case OpacityDownAction =>
            var op := ClampReal(v.config.window.opacity - OPACITY_STEP, MIN_OPACITY, MAX_OPACITY);
            v.(windowOpacity := op, config := WithPush(v.config, Opacity(op)),
               emitted := v.emitted + [SettingChanged(Opacity(op))],
               evaluated := v.evaluated + [UpdateOverlay(Opacity(op))])
          case ToggleVisibilityAction => v.(visible := !v.visible)
      ensures Valid()
    {
      match a
      case ToggleOnTopAction =>
        var _ := ToggleAlwaysOnTop(true);
      case ToggleLockedAction =>
        var _ := ToggleLocked(true);
      case OpacityUpAction =>
        var _ := OpacityChange(OPACITY_STEP);
      case OpacityDownAction =>
        var _ := OpacityChange(-OPACITY_STEP);
      case ToggleVisibilityAction =>
        ToggleVisibility();
    }
  }

  /** Start-up: load the stored configuration (or the defaults), then set up
      the window for it. */
  method Start(stored: Option<StoredConfig>, parse: UrlParser) returns (h: HostState)
    ensures fresh(h) && h.Valid() && h.parse == parse
    ensures stored.Some? && Deserialize(stored.value).Success? ==>
      h.config == SanitizedConfigOf(Deserialize(stored.value).value, parse)
    ensures stored.None? || Deserialize(stored.value).Failure? ==>
      h.config == SanitizedConfigOf(DefaultAppConfig(), parse)
    ensures h.onTop == h.config.window.alwaysOnTop && !h.clickThrough
    ensures h.windowOpacity == h.config.window.opacity && h.visible
    ensures h.emitted == [] && h.evaluated == [Load(StartupUrl(h.config, parse))]
  {
    var c := LoadConfig(stored, parse);
    h := new HostState(c, parse);
  }
}

=== FILE: hotkeys.dfy ===
/** Reading a human-readable shortcut such as "Alt+Shift+T" into the
    modifier set and key the global-shortcut registry takes. Pieces are
    separated by '+'; every piece but the last may name a modifier, the last
    must name one of the five keys the host binds. Unknown modifiers are
    ignored; an unknown key means the shortcut is not registered. */
module Hotkeys {
  import opened Common
  import opened Text

  datatype Modifier = Alt | Shift | Control | Super

  datatype KeyCode = KeyT | KeyD | ArrowUp | ArrowDown | KeyH

  datatype Shortcut = Shortcut(modifiers: set<Modifier>, code: KeyCode)

  /** A piece as it is compared: trimmed and lower-cased. Only ASCII letters
      are lowered; every keyword below is ASCII, and no other character
      lowers to an ASCII letter found in one of them. */
  function Word(piece: string): string {
    AsciiLower(Trim(piece, IsRustWhitespace))
  }

  function ModifierOf(word: string): Option<Modifier> {
    if word == "alt" then Some(Alt)
    else if word == "shift" then Some(Shift)
    else if word == "control" || word == "ctrl" then Some(Control)
    else if word == "super" || word == "win" || word == "meta" then Some(Super)
    else None
  }

  function KeyOf(word: string): Option<KeyCode> {
    if word == "t" then Some(KeyT)
    else if word == "d" then Some(KeyD)
    else if word == "up" then Some(ArrowUp)
    else if word == "down" then Some(ArrowDown)
    else if word == "h" then Some(KeyH)
    else None
  }

  /** The words of a shortcut text: its '+'-separated pieces, each trimmed
      and lower-cased. */
  function Words(s: string): (words: seq<string>)
    ensures |words| == |Split(s, '+')| && |words| >= 1
  {
    WordsOf(Split(s, '+'))
  }

  function WordsOf(pieces: seq<string>): (words: seq<string>)
    ensures |words| == |pieces|
  {
    if pieces == [] then [] else [Word(pieces[0])] + WordsOf(pieces[1..])
  }

  lemma {:induction false} WordsOfAt(pieces: seq<string>, i: nat)
    requires i < |pieces|
    ensures WordsOf(pieces)[i] == Word(pieces[i])
  {
    if i > 0 {
      WordsOfAt(pieces[1..], i - 1);
    }
  }

  /** The modifier a single word names, as a set. */
  function Named(w: string): set<Modifier> {
    if ModifierOf(w).Some? then {ModifierOf(w).value} else {}
  }

  /** The modifiers named by the given words. */
  function ModifiersOf(words: seq<string>): (m: set<Modifier>)
    ensures forall md :: md in m <==> exists i :: 0 <= i < |words| && ModifierOf(words[i]) == Some(md)
  {
    if words == [] then {}
    else
      var rest := ModifiersOf(words[..|words| - 1]);
      var last := ModifierOf(words[|words| - 1]);
      assert forall i :: 0 <= i < |words| - 1 ==> words[..|words| - 1][i] == words[i];
      if last.Some? then rest + {last.value} else rest
  }

  lemma ModifiersOfSnoc(words: seq<string>, w: string)
    ensures ModifiersOf(words + [w]) == ModifiersOf(words) + Named(w)
  {
    assert (words + [w])[..|words|] == words;
  }

  /** What a list of words means: the modifiers named by every word but the
      last, and the key named by the last. */
  function ShortcutOfWords(words: seq<string>): Option<Shortcut>
    requires |words| >= 1
  {
    match KeyOf(words[|words| - 1])
    case None => None
    case Some(code) => Some(Shortcut(ModifiersOf(words[..|words| - 1]), code))
  }

  /** What a shortcut text means. */
  function ShortcutOf(s: string): Option<Shortcut> {
    ShortcutOfWords(Words(s))
  }

  /** One more leading piece read by the loop adds the modifier it names. */
  lemma ModifiersStep(s: string, i: nat)
    requires i < |Split(s, '+')| - 1
    ensures ModifiersOf(Words(s)[..i + 1]) == ModifiersOf(Words(s)[..i]) + Named(Word(Split(s, '+')[i]))
  {
    WordsOfAt(Split(s, '+'), i);
    ModifiersPrefixStep(Words(s), i);
  }

  lemma ModifiersPrefixStep(words: seq<string>, i: nat)
    requires i < |words|
    ensures ModifiersOf(words[..i + 1]) == ModifiersOf(words[..i]) + Named(words[i])
  {
    assert words[..i + 1] == words[..i] + [words[i]];
    ModifiersOfSnoc(words[..i], words[i]);
  }

  /** With every leading piece read, the last piece decides. */
  lemma ModifiersDone(s: string, modifiers: set<Modifier>)
    requires modifiers == ModifiersOf(Words(s)[..|Split(s, '+')| - 1])
    ensures var code := KeyOf(Word(Split(s, '+')[|Split(s, '+')| - 1]));
      ShortcutOf(s) == if code.None? then None else Some(Shortcut(modifiers, code.value))
  {
    var pieces := Split(s, '+');
    WordsOfAt(pieces, |pieces| - 1);
  }

  /** The host's reading of a shortcut text: a loop over every piece but
      the last, collecting modifiers, then the key. */
  method ParseHotkey(s: string) returns (r: Option<Shortcut>)
    ensures r == ShortcutOf(s)
  {
    var pieces := Split(s, '+');
    var modifiers: set<Modifier> := {};
    var i := 0;
    while i < |pieces| - 1
      invariant 0 <= i <= |pieces| - 1
      invariant modifiers == ModifiersOf(Words(s)[..i])
    {
      ModifiersStep(s, i);
      var md := ModifierOf(Word(pieces[i]));
      if md.Some? {
        modifiers := modifiers + {md.value};
      }
      i := i + 1;
    }
    ModifiersDone(s, modifiers);
    var code := KeyOf(Word(pieces[|pieces| - 1]));
    if code.None? {
      return None;
    }
    r := Some(Shortcut(modifiers, code.value));
  }

  /** A list of words is a shortcut exactly when its last word names a key,
      and then that key is the shortcut's key. */
  lemma LastWordIsKey(words: seq<string>)
    requires |words| >= 1
    ensures ShortcutOfWords(words).Some? <==> KeyOf(words[|words| - 1]).Some?
    ensures ShortcutOfWords(words).Some? ==>
      ShortcutOfWords(words).value.code == KeyOf(words[|words| - 1]).value
  {
  }

  /** A text is registered exactly when its last piece names a key. */
  lemma RegisteredIffKeyLast(s: string)
    ensures ShortcutOf(s).Some? <==> KeyOf(Words(s)[|Words(s)| - 1]).Some?
    ensures ShortcutOf(s).Some? ==> ShortcutOf(s).value.code == KeyOf(Words(s)[|Words(s)| - 1]).value
  {
    LastWordIsKey(Words(s));
  }

  /** A text without '+' is a bare key, with no modifier. */
  lemma BareKey(s: string)
    requires '+' !in s
    ensures ShortcutOf(s) == if KeyOf(Word(s)).Some? then Some(Shortcut({}, KeyOf(Word(s)).value)) else None
  {
    SplitNoSeparator(s, '+');
    assert Words(s) == [Word(s)];
    assert ShortcutOf(s) == ShortcutOfWords([Word(s)]);
  }

  /** The modifiers of a word followed by more words. */
  lemma {:induction false} ModifiersOfCons(w: string, rest: seq<string>)
    ensures ModifiersOf([w] + rest) ==
      Named(w) + ModifiersOf(rest)
    decreases |rest|
  {
    if rest == [] {
      assert [w] + rest == [] + [w];
      ModifiersOfSnoc([], w);
    } else {
      var init, last := rest[..|rest| - 1], rest[|rest| - 1];
      assert rest == init + [last];
      assert [w] + rest == ([w] + init) + [last];
      ModifiersOfCons(w, init);
      ModifiersOfSnoc([w] + init, last);
      ModifiersOfSnoc(init, last);
    }
  }

  /** A leading word adds its modifier, if it names one, and is otherwise
      ignored. */
  lemma LeadingWord(w: string, rest: seq<string>)
    requires |rest| >= 1
    ensures ShortcutOfWords([w] + rest).Some? == ShortcutOfWords(rest).Some?
    ensures ShortcutOfWords(rest).Some? ==>
      ShortcutOfWords([w] + rest).value ==
        Shortcut(Named(w) + ShortcutOfWords(rest).value.modifiers, ShortcutOfWords(rest).value.code)
  {
    var words := [w] + rest;
    assert words[|words| - 1] == rest[|rest| - 1];
    assert words[..|words| - 1] == [w] + rest[..|rest| - 1];
    ModifiersOfCons(w, rest[..|rest| - 1]);
  }

  /** A leading piece without '+' contributes one word in front. */
  lemma WordsCons(p: string, s: string)
    requires '+' !in p
    ensures Words(p + "+" + s) == [Word(p)] + Words(s)
  {
    assert p + "+" + s == p + ['+'] + s;
    SplitCons(p, s, '+');
  }

  /** A leading piece adds its modifier, if it names one, and is otherwise
      ignored: "Hyper+Alt+T" is read as "Alt+T". */
  lemma LeadingPiece(p: string, s: string)
    requires '+' !in p
    ensures ShortcutOf(p + "+" + s).Some? == ShortcutOf(s).Some?
    ensures ShortcutOf(s).Some? ==>
      ShortcutOf(p + "+" + s).value ==
        Shortcut(Named(Word(p)) + ShortcutOf(s).value.modifiers, ShortcutOf(s).value.code)
  {
    WordsCons(p, s);
    LeadingWord(Word(p), Words(s));
  }

  /** The order of two leading words does not matter. */
  lemma LeadingWordsCommute(a: string, b: string, rest: seq<string>)
    requires |rest| >= 1
    ensures ShortcutOfWords([a, b] + rest) == ShortcutOfWords([b, a] + rest)
  {
    assert [a, b] + rest == [a] + ([b] + rest);
    assert [b, a] + rest == [b] + ([a] + rest);
    LeadingWord(b, rest);
    LeadingWord(a, [b] + rest);
    LeadingWord(a, rest);
    LeadingWord(b, [a] + rest);
    if ShortcutOfWords(rest).Some? {
      var m := ShortcutOfWords(rest).value.modifiers;
      assert Named(a) + (Named(b) + m) == Named(b) + (Named(a) + m);
    }
  }

  /** Two leading pieces add the modifiers they name. */
  lemma TwoLeadingPieces(a: string, b: string, s: string)
    requires '+' !in a && '+' !in b
    ensures ShortcutOf(a + "+" + b + "+" + s) ==
      if ShortcutOf(s).None? then None
      else Some(Shortcut(Named(Word(a)) + Named(Word(b)) + ShortcutOf(s).value.modifiers, ShortcutOf(s).value.code))
  {
    var tail := b + "+" + s;
    assert a + "+" + b + "+" + s == a + "+" + tail;
    LeadingPiece(b, s);
    LeadingPiece(a, tail);
    if ShortcutOf(s).Some? {
      UnionRegroup(Named(Word(a)), Named(Word(b)), ShortcutOf(s).value.modifiers);
    }
  }

  lemma UnionRegroup(x: set<Modifier>, y: set<Modifier>, z: set<Modifier>)
    ensures x + (y + z) == x + y + z
  {
  }

  lemma UnionSwap(x: set<Modifier>, y: set<Modifier>, z: set<Modifier>)
    ensures x + y + z == y + x + z
  {
  }

  /** The order of two leading modifiers does not matter: "Shift+Alt+T" and
      "Alt+Shift+T" name the same shortcut. */
  lemma LeadingPiecesCommute(a: string, b: string, s: string)
    requires '+' !in a && '+' !in b
    ensures ShortcutOf(a + "+" + b + "+" + s) == ShortcutOf(b + "+" + a + "+" + s)
  {
    TwoLeadingPieces(a, b, s);
    TwoLeadingPieces(b, a, s);
    if ShortcutOf(s).Some? {
      UnionSwap(Named(Word(a)), Named(Word(b)), ShortcutOf(s).value.modifiers);
    }
  }

  /** The words "alt", "shift" and a key word make the Alt+Shift shortcut
      for that key. */
  lemma AltShiftWords(k: string, code: KeyCode)
    requires KeyOf(k) == Some(code)
    ensures ShortcutOfWords(["alt", "shift", k]) == Some(Shortcut({Alt, Shift}, code))
  {
    var words := ["alt", "shift", k];
    assert words[..2] == ["alt"] + ["shift"];
    assert words[2] == k;
    ModifiersOfCons("alt", ["shift"]);
    assert ["shift"] == ["shift"] + [];
    ModifiersOfCons("shift", []);
    assert Named("alt") == {Alt};
    assert Named("shift") == {Shift};
    assert ModifiersOf(words[..2]) == {Alt, Shift};
  }

  lemma AltSpelling()
    ensures Word("Alt") == "alt"
  {
    AltIsClean();
    AltLowers();
  }

  lemma ShiftSpelling()
    ensures Word("Shift") == "shift"
  {
    ShiftIsClean();
    ShiftLowers();
  }

  /** Two leading pieces and a key piece give three words. */
  lemma ThreePieces(a: string, b: string, key: string)
    requires '+' !in a && '+' !in b && '+' !in key
    ensures Words(a + "+" + b + "+" + key) == [Word(a), Word(b), Word(key)]
  {
    assert a + "+" + b + "+" + key == a + ['+'] + b + ['+'] + key;
    SplitThree(a, b, key, '+');
    var pieces := [a, b, key];
    WordsOfAt(pieces, 0);
    WordsOfAt(pieces, 1);
    WordsOfAt(pieces, 2);
  }

  /** How the default shortcuts spell each key. */
  function KeyName(code: KeyCode): string {
    match code
    case KeyT => "T"
    case KeyD => "D"
    case ArrowUp => "Up"
    case ArrowDown => "Down"
    case KeyH => "H"
  }

  /** No key name starts or ends with whitespace. */
  lemma KeyNameIsClean(code: KeyCode)
    ensures Trim(KeyName(code), IsRustWhitespace) == KeyName(code)
  {
    TrimKeepsClean(KeyName(code), IsRustWhitespace);
  }

  /** Every key name lower-cases to the word that names its key. */
  lemma KeyNameLowers(code: KeyCode)
    ensures '+' !in KeyName(code) && KeyOf(AsciiLower(KeyName(code))) == Some(code)
  {
    match code
    case KeyT => LowersToLower("T", "t");
    case KeyD => LowersToLower("D", "d");
    case ArrowUp => LowersToLower("Up", "up");
    case ArrowDown => LowersToLower("Down", "down");
    case KeyH => LowersToLower("H", "h");
  }

  /** Each spelling reads back as its key. */
  lemma KeyNameReads(code: KeyCode)
    ensures '+' !in KeyName(code) && KeyOf(Word(KeyName(code))) == Some(code)
  {
    KeyNameIsClean(code);
    KeyNameLowers(code);
  }

  /** Every default shortcut is Alt and Shift plus the action's key. */
  lemma DefaultShortcut(key: string, code: KeyCode)
    requires '+' !in key && KeyOf(Word(key)) == Some(code)
    ensures ShortcutOf("Alt" + "+" + "Shift" + "+" + key) == Some(Shortcut({Alt, Shift}, code))
  {
    ThreePieces("Alt", "Shift", key);
    AltSpelling();
    ShiftSpelling();
    AltShiftWords(Word(key), code);
  }
}

=== FILE: messages.dfy ===
/** What the host tells the overlay and what the overlay asks of the host.
    A setting change travels as a `Push`: the host emits it as an event
    ("opacity-changed", "always-on-top-changed", "locked-changed") and, when
    the change comes from a hotkey or the tray, also evaluates
    `window.__floatViewUpdate(key, value)` in the page. */
module Messages {
  import opened Common
  import opened Config

  /** One window setting with its new value. */
  datatype Push =
    | AlwaysOnTop(onTop: bool)
    | Locked(locked: bool)
    | Opacity(opacity: real)

  /** `c` with the one field `p` names set to `p`'s value. */
  function WithPush(c: AppConfig, p: Push): (r: AppConfig)
    ensures r.lastUrl == c.lastUrl && r.recentUrls == c.recentUrls && r.hotkeys == c.hotkeys
    ensures r.homeUrl == c.homeUrl && r.firstRun == c.firstRun
    ensures r.audioDeviceId == c.audioDeviceId && r.launchAtStartup == c.launchAtStartup
    ensures r.window.x == c.window.x && r.window.y == c.window.y
    ensures r.window.width == c.window.width && r.window.height == c.window.height
    ensures r.window.monitor == c.window.monitor
    ensures r.window.alwaysOnTop == if p.AlwaysOnTop? then p.onTop else c.window.alwaysOnTop
    ensures r.window.locked == if p.Locked? then p.locked else c.window.locked
    ensures r.window.opacity == if p.Opacity? then p.opacity else c.window.opacity
  {
    match p
    case AlwaysOnTop(v) => c.(window := c.window.(alwaysOnTop := v))
    case Locked(v) => c.(window := c.window.(locked := v))
    case Opacity(v) => c.(window := c.window.(opacity := v))
  }

  /** Events the host emits to every window. */
  datatype Event =
    | SettingChanged(push: Push)
    | ConfigChanged(config: AppConfig)
    | OpenSettings

  /** Scripts the host evaluates in the page. */
  datatype Script =
    | UpdateOverlay(push: Push)
    | OpenSettingsScript
    | Stop
    | Load(url: string)

  /** Commands the overlay sends to the host. */
  datatype Command =
    | GetConfig
    | UpdateConfig(config: AppConfig)
    | SetUrl(url: string)
    | NavigateHome
    | ToggleAlwaysOnTop
    | ToggleLocked
    | SetOpacity(opacity: real)
    | SaveWindowGeometry
    | MinimizeWindow
    | CloseWindow
    | MaximizeToggle

  /** How a command's promise settles in the page: `null` when the bridge
      never appeared, the host's value, or a rejection with its message. */
  datatype Reply<T> = Bridgeless | Resolved(value: T) | Rejected(error: string)
}

=== FILE: overlay.dfy ===
/** The control strip the host injects into every page it shows: a thin
    hotzone at the top of the window that reveals the strip after a short
    dwell, the strip's buttons and URL bar, the recent-URL dropdown, the
    settings panel, the context menu, and the overlay's mirror of the host's
    configuration, which it keeps in step from the host's events.

    Timers are modelled by whether they are armed; a timer that fires calls
    the matching `...Fires` method. Every command the overlay issues is
    appended to `sent`; without the host's bridge it never reaches the host
    and the page gets `null` instead (the `Bridgeless` reply). The reply the
    page received is a parameter of the handler that awaits it. */
module Overlay {
  import opened Common
  import opened Text
  import opened Config
  import opened History
  import opened Messages
  import Dwell

  /** After how many interval ticks (50 ms each) the listener poll gives up. */
  const LISTENER_POLLS: nat := 100
  /** How many 50 ms init ticks fit in the 30 s before the init poll stops. */
  const INIT_TICKS: nat := 600

  // ---------------------------------------------------------------------
  // The recent-URL dropdown

  /** One row of the dropdown; the row of the page on show is marked. */
  datatype RecentEntry = RecentEntry(url: string, current: bool)

  /** What the dropdown shows: a placeholder or one row per recent URL. */
  datatype RecentView = NoRecent | RecentItems(entries: seq<RecentEntry>)

  function Entries(urls: seq<string>, location: string): (es: seq<RecentEntry>)
    ensures |es| == |urls|
    ensures forall i :: 0 <= i < |urls| ==> es[i].url == urls[i]
    ensures forall i :: 0 <= i < |urls| ==> (es[i].current <==> urls[i] == location)
  {
    if urls == [] then []
    else [RecentEntry(urls[0], urls[0] == location)] + Entries(urls[1..], location)
  }

  /** The dropdown for the mirrored configuration: the placeholder exactly
      when there is no configuration, no list or an empty list; otherwise
      the list in order, with the page on show marked current. */
  function RenderRecent(mirror: Option<AppConfig>, location: string): (v: RecentView)
    ensures v.NoRecent? <==>
      mirror.None? || mirror.value.recentUrls.None? || mirror.value.recentUrls.value == []
    ensures v.RecentItems? ==> |v.entries| == |mirror.value.recentUrls.value|
    ensures v.RecentItems? ==> forall i :: 0 <= i < |v.entries| ==>
      v.entries[i].url == mirror.value.recentUrls.value[i] &&
      (v.entries[i].current <==> v.entries[i].url == location)
  {
    if mirror.None? || mirror.value.recentUrls.None? || mirror.value.recentUrls.value == [] then NoRecent
    else RecentItems(Entries(mirror.value.recentUrls.value, location))
  }

  /** The page a click on row `i` goes to: none for the current row or an
      empty entry. */
  function ClickTarget(v: RecentView, i: nat): (r: Option<string>)
    ensures r.Some? ==> v.RecentItems? && i < |v.entries| && r.value == v.entries[i].url
    ensures r.Some? <==> v.RecentItems? && i < |v.entries| && v.entries[i].url != [] && !v.entries[i].current
  {
    if v.RecentItems? && i < |v.entries| && v.entries[i].url != [] && !v.entries[i].current
    then Some(v.entries[i].url) else None
  }

  /** A click in the freshly drawn dropdown never reloads the page on show,
      and every other non-empty row is a working link. */
  lemma ClickLeavesCurrentPage(mirror: Option<AppConfig>, location: string, i: nat)
    requires mirror.Some? && mirror.value.recentUrls.Some?
    requires i < |mirror.value.recentUrls.value|
    ensures var url := mirror.value.recentUrls.value[i];
      ClickTarget(RenderRecent(mirror, location), i) ==
        if url == location || url == [] then None else Some(url)
  {
  }

  /** With a list free of duplicates, as the host keeps it, at most one row
      is marked current. */
  lemma {:induction false} AtMostOneCurrent(urls: seq<string>, location: string)
    requires NoDup(urls)
    ensures forall i, j :: 0 <= i < j < |urls| ==>
      !(Entries(urls, location)[i].current && Entries(urls, location)[j].current)
  {
    var es := Entries(urls, location);
    forall i, j | 0 <= i < j < |urls|
      ensures !(es[i].current && es[j].current)
    {
      assert urls[i] != urls[j];
    }
  }

  // ---------------------------------------------------------------------
  // The URL bar

  /** The bar's own check for a scheme, as written: case-sensitive. */
  predicate HasWebPrefix(t: string) {
    StartsWith(t, "http://") || StartsWith(t, "https://")
  }

  /** The same check ignoring ASCII case, as schemes are compared. */
  predicate HasWebPrefixAnyCase(t: string) {
    || (|t| >= 7 && AsciiLower(t[..7]) == "http://")
    || (|t| >= 8 && AsciiLower(t[..8]) == "https://")
  }

  /** The page Enter in the URL bar goes to, as written: the trimmed input,
      with "https://" put in front unless it starts with "http://" or
      "https://" in lower case. Empty means nothing is sent. */
  function UrlBarTargetAsWritten(value: string): (url: string)
    ensures url == [] <==> Trim(value, IsJsWhitespace) == []
  {
    var t := Trim(value, IsJsWhitespace);
    if t != [] && !HasWebPrefix(t) then "https://" + t else t
  }

  /** The same with the scheme check ignoring case. */
  function UrlBarTarget(value: string): (url: string)
    ensures url == [] <==> Trim(value, IsJsWhitespace) == []
  {
    var t := Trim(value, IsJsWhitespace);
    if t != [] && !HasWebPrefixAnyCase(t) then "https://" + t else t
  }

  /** A typed address that already names the web scheme in upper case gets a
      second scheme in front, as written; the corrected bar keeps it. */
  lemma UpperCaseSchemeWrapped(v: string)
    requires |v| >= 8 && v[..8] == "HTTPS://" && !IsJsWhitespace(v[|v| - 1])
    ensures UrlBarTargetAsWritten(v) == "https://" + v
    ensures UrlBarTarget(v) == v
  {
    assert v[0] == v[..8][0] == 'H';
    assert !HasWebPrefix(v) by {
      assert v[..7][0] == v[0];
    }
    assert HasWebPrefixAnyCase(v) by {
      UpperHttpsPrefixLowers();
    }
    TrimKeepsClean(v, IsJsWhitespace);
  }

  /** Whatever is sent from the bar names a web scheme, and a typed address
      that names one is sent as typed (trimmed). */
  lemma UrlBarSendsWebUrls(value: string)
    ensures var url := UrlBarTarget(value);
      url != [] ==> HasWebPrefixAnyCase(url)
    ensures HasWebPrefixAnyCase(Trim(value, IsJsWhitespace)) ==>
      UrlBarTarget(value) == Trim(value, IsJsWhitespace)
  {
    var t := Trim(value, IsJsWhitespace);
    if t != [] && !HasWebPrefixAnyCase(t) {
      var url := "https://" + t;
      assert url[..8] == "https://";
      HttpsPrefixLowers();
    }
  }

  /** What the bar sends neither starts nor ends with whitespace. */
  lemma UrlBarTargetIsClean(value: string)
    ensures var url := UrlBarTarget(value);
      url != [] ==> !IsJsWhitespace(url[0]) && !IsJsWhitespace(url[|url| - 1])
  {
    var t := Trim(value, IsJsWhitespace);
    if t != [] && !HasWebPrefixAnyCase(t) {
      WrappedIsClean(t);
    }
  }

  lemma WrappedIsClean(t: string)
    requires t != [] && !IsJsWhitespace(t[0]) && !IsJsWhitespace(t[|t| - 1])
    ensures var u := "https://" + t; !IsJsWhitespace(u[0]) && !IsJsWhitespace(u[|u| - 1])
  {
    ConcatEnds("https://", t);
  }

  /** A clean text that names a web scheme is sent as it is. */
  lemma WebUrlKept(url: string)
    requires url != [] && !IsJsWhitespace(url[0]) && !IsJsWhitespace(url[|url| - 1])
    requires HasWebPrefixAnyCase(url)
    ensures UrlBarTarget(url) == url
  {
    TrimKeepsClean(url, IsJsWhitespace);
  }

  /** Entering the bar's own result again sends the same page. */
  lemma UrlBarIdempotent(value: string)
    ensures UrlBarTarget(UrlBarTarget(value)) == UrlBarTarget(value)
  {
    var url := UrlBarTarget(value);
    if url != [] {
      UrlBarTargetIsClean(value);
      UrlBarSendsWebUrls(value);
      WebUrlKept(url);
    } else {
      assert Trim(url, IsJsWhitespace) == [];
    }
  }

  /** What the URL bar is filled with once the configuration arrives: the
      page on show unless it is empty, internal or blank; otherwise the last
      URL from the configuration when it is non-empty; otherwise nothing. */
  function PrefillUrl(location: string, mirror: Option<AppConfig>): (r: Option<string>)
    ensures r.Some? ==> r.value != []
    ensures r.Some? && r.value != location ==>
      mirror.Some? && mirror.value.lastUrl == Some(r.value)
    ensures location != [] && !StartsWith(location, "tauri://") && location != "about:blank" ==>
      r == Some(location)
  {
    if location != [] && !StartsWith(location, "tauri://") && location != "about:blank" then Some(location)
    else if mirror.Some? && mirror.value.lastUrl.Some? && mirror.value.lastUrl.value != [] then mirror.value.lastUrl
    else None
  }

  /** The home page the settings panel sends: the trimmed input, or the
      default when that is blank. */
  function HomeUrlSetting(value: string): (h: string)
    ensures h != []
    ensures Trim(value, IsJsWhitespace) != [] ==> h == Trim(value, IsJsWhitespace)
    ensures Trim(value, IsJsWhitespace) == [] ==> h == DEFAULT_HOME_URL
  {
    var t := Trim(value, IsJsWhitespace);
    if t == [] then DEFAULT_HOME_URL else t
  }

  /** The opacity a slider position in percent stands for. */
  function SliderOpacity(percent: int): (o: real)
    ensures 10 <= percent <= 100 ==> MIN_OPACITY <= o <= MAX_OPACITY
    ensures o * 100.0 == percent as real
  {
    percent as real / 100.0
  }

  /** The mirror after the host announced one setting: unchanged when the
      page never got a configuration. */
  function MirrorPush(mirror: Option<AppConfig>, p: Push): (r: Option<AppConfig>)
    ensures r.None? <==> mirror.None?
    ensures r.Some? ==> r.value == WithPush(mirror.value, p)
  {
    if mirror.Some? then Some(WithPush(mirror.value, p)) else None
  }

  /** Whatever sequence of settings the host announces, a mirror that starts
      equal to the host's configuration ends equal to it. */
  function PushAll(c: AppConfig, ps: seq<Push>): AppConfig
    decreases |ps|
  {
    if ps == [] then c else PushAll(WithPush(c, ps[0]), ps[1..])
  }

  function MirrorPushAll(mirror: Option<AppConfig>, ps: seq<Push>): Option<AppConfig>
    decreases |ps|
  {
    if ps == [] then mirror else MirrorPushAll(MirrorPush(mirror, ps[0]), ps[1..])
  }

  lemma {:induction false} MirrorKeepsStep(c: AppConfig, ps: seq<Push>)
    ensures MirrorPushAll(Some(c), ps) == Some(PushAll(c, ps))
    decreases |ps|
  {
    if ps != [] {
      MirrorKeepsStep(WithPush(c, ps[0]), ps[1..]);
    }
  }

  // ---------------------------------------------------------------------
  // The overlay's state and handlers

  /** The part of the overlay that the host's messages and the keyboard
      change; those handlers leave every other part alone. */
  datatype OverlayView = OverlayView(
    stripVisible: bool, hideArmed: bool, settingsOpen: bool, containerShown: bool,
    pinActive: bool, lockActive: bool, urlFocused: bool,
    config: Option<AppConfig>, shown: Option<RecentView>)

  /** One setting announced by the host: its button follows it, locking
      hides the strip and the whole overlay, unlocking shows the overlay
      again, and the mirror takes the new value. */
  function AfterPush(v: OverlayView, p: Push): OverlayView {
    OverlayView(
      stripVisible := v.stripVisible && !(p.Locked? && p.locked),
      hideArmed := v.hideArmed,
      settingsOpen := v.settingsOpen,
      containerShown := if p.Locked? then !p.locked else v.containerShown,
      pinActive := if p.AlwaysOnTop? then p.onTop else v.pinActive,
      lockActive := if p.Locked? then p.locked else v.lockActive,
      urlFocused := v.urlFocused,
      config := MirrorPush(v.config, p),
      shown := v.shown)
  }

  /** The pin and lock buttons show what the mirror holds. */
  predicate ButtonsInStep(v: OverlayView) {
    v.config.Some? ==>
      v.pinActive == v.config.value.window.alwaysOnTop && v.lockActive == v.config.value.window.locked
  }

  /** Every pushed setting keeps the buttons in step with the mirror, and a
      lock push leaves the whole overlay shown exactly when unlocked. */
  lemma PushKeepsButtonsInStep(v: OverlayView, p: Push)
    requires ButtonsInStep(v)
    ensures ButtonsInStep(AfterPush(v, p))
    ensures p.Locked? ==> AfterPush(v, p).containerShown == !p.locked
    ensures p.Locked? && p.locked ==> !AfterPush(v, p).stripVisible
  {
  }

  /** The host asks for the settings panel: overlay, strip and panel shown,
      a pending hide cancelled. */
  function AfterOpenSettings(v: OverlayView): OverlayView {
    v.(containerShown := true, stripVisible := true, hideArmed := false, settingsOpen := true)
  }

  /** The host's whole configuration: the mirror replaced, the dropdown
      redrawn for the page at `location`. */
  function AfterConfig(v: OverlayView, c: AppConfig, location: string): OverlayView {
    v.(config := Some(c), shown := Some(RenderRecent(Some(c), location)))
  }

  /** A key pressed anywhere in the page: Ctrl+L shows the strip and focuses
      the URL bar; Escape hides a shown strip and leaves the bar, and closes
      the settings panel whether or not the strip was shown. */
  function AfterKey(v: OverlayView, ctrl: bool, key: string): OverlayView {
    if ctrl && key == "l" then v.(stripVisible := true, hideArmed := false, urlFocused := true)
    else if key == "Escape" then
      (if v.stripVisible then v.(stripVisible := false, urlFocused := false) else v).(settingsOpen := false)
    else v
  }

  /** The last tick the start-up poll runs: parsing finishing stops it,
      and so does the 30 s timeout. */
  function LastTick(loaded: Option<nat>): (t: nat)
    ensures t <= INIT_TICKS
    ensures loaded.None? ==> t == INIT_TICKS
  {
    if loaded.Some? && loaded.value < INIT_TICKS then loaded.value else INIT_TICKS
  }

  class Overlay {
    /** The address of the page the overlay lives in. */
    var location: string
    var stripVisible: bool
    var dwellArmed: bool
    var hideArmed: bool
    var settingsOpen: bool
    var dropdownVisible: bool
    var menuVisible: bool
    /** Whether the whole overlay is displayed (it is hidden while locked). */
    var containerShown: bool
    var pinActive: bool
    var lockActive: bool
    var urlText: string
    var urlFocused: bool
    /** The overlay's copy of the host's configuration (`null` when none). */
    var config: Option<AppConfig>
    /** What the dropdown was last drawn with; none before the first drawing. */
    var shown: Option<RecentView>
    var sent: seq<Command>
    var listenersReady: bool
    /** How many times the host's events were subscribed to. */
    var registrations: nat
    var initialized: bool
    /** How many times the overlay was put into the page's body. */
    var insertions: nat

    /** Subscriptions and insertion into the page each happen at most once,
        and exactly when their flag is set. */
    predicate Valid()
      reads this
    {
      && registrations == (if listenersReady then 1 else 0)
      && insertions == (if initialized then 1 else 0)
    }

    function View(): OverlayView
      reads this
    {
      OverlayView(stripVisible, hideArmed, settingsOpen, containerShown,
                  pinActive, lockActive, urlFocused, config, shown)
    }

    constructor (location: string)
      ensures this.location == location && Valid()
      ensures !stripVisible && !dwellArmed && !hideArmed && !settingsOpen
      ensures !dropdownVisible && !menuVisible && containerShown
      ensures !pinActive && !lockActive && urlText == [] && !urlFocused
      ensures config.None? && shown.None? && sent == []
      ensures !listenersReady && !initialized && registrations == 0 && insertions == 0
    {
      this.location := location;
      stripVisible := false;
      dwellArmed := false;
      hideArmed := false;
      settingsOpen := false;
      dropdownVisible := false;
      menuVisible := false;
      containerShown := true;
      pinActive := false;
      lockActive := false;
      urlText := [];
      urlFocused := false;
      config := None;
      shown := None;
      sent := [];
      listenersReady := false;
      registrations := 0;
      initialized := false;
      insertions := 0;
    }

    // --- showing and hiding the strip

    method ShowStrip()
      modifies this`stripVisible, this`hideArmed
      ensures stripVisible && !hideArmed
    {
      hideArmed := false;
      stripVisible := true;
    }

    method HideStrip()
      modifies this`stripVisible
      ensures !stripVisible
    {
      stripVisible := false;
    }

    method ScheduleHide()
      modifies this`hideArmed
      ensures hideArmed
    {
      hideArmed := true;
    }

    method CancelHide()
      modifies this`hideArmed
      ensures !hideArmed
    {
      hideArmed := false;
    }

    /** The hide timer fires: the strip stays while the settings panel or
        the dropdown is open. */
    method HideTimerFires()
      modifies this`hideArmed, this`stripVisible
      ensures !hideArmed
      ensures stripVisible == (old(stripVisible) &&
        (!old(hideArmed) || settingsOpen || dropdownVisible))
    {
      if hideArmed {
        hideArmed := false;
        if !settingsOpen && !dropdownVisible {
          HideStrip();
        }
      }
    }

    /** The dwell timer fires and shows the strip. */
    method DwellTimerFires()
      modifies this`dwellArmed, this`stripVisible, this`hideArmed
      ensures !dwellArmed
      ensures old(dwellArmed) ==> stripVisible && !hideArmed
      ensures !old(dwellArmed) ==> stripVisible == old(stripVisible) && hideArmed == old(hideArmed)
    {
      if dwellArmed {
        dwellArmed := false;
        ShowStrip();
      }
    }

    // --- pointer movement

    /** Entering the hotzone cancels a pending hide and (re)arms the dwell
        timer; the timer already armed is replaced, not left running. */
    method HotzoneEntered()
      modifies this`hideArmed, this`dwellArmed
      ensures !hideArmed && dwellArmed
    {
      CancelHide();
      dwellArmed := true;
    }

    /** Leaving the hotzone for the strip or the drag bar changes nothing;
        leaving it elsewhere cancels the dwell and, with the strip shown,
        schedules its hiding. */
    method HotzoneLeft(to: Dwell.Target)
      modifies this`dwellArmed, this`hideArmed
      ensures to == Dwell.Strip || to == Dwell.DragBar ==>
        dwellArmed == old(dwellArmed) && hideArmed == old(hideArmed)
      ensures to != Dwell.Strip && to != Dwell.DragBar ==>
        !dwellArmed && hideArmed == (old(hideArmed) || stripVisible)
    {
      if to == Dwell.Strip || to == Dwell.DragBar {
        return;
      }
      dwellArmed := false;
      if stripVisible {
        ScheduleHide();
      }
    }

    /** Entering the strip cancels both the pending hide and the dwell. */
    method StripEntered()
      modifies this`hideArmed, this`dwellArmed
      ensures !hideArmed && !dwellArmed
    {
      CancelHide();
      dwellArmed := false;
    }

    /** Leaving the strip schedules its hiding, unless the pointer went to
        the hotzone or the drag bar or the settings panel or dropdown is
        open. */
    method StripLeft(to: Dwell.Target)
      modifies this`hideArmed
      ensures hideArmed == (old(hideArmed) ||
        (to != Dwell.Hotzone && to != Dwell.DragBar && !settingsOpen && !dropdownVisible))
    {
      if to == Dwell.Hotzone || to == Dwell.DragBar {
        return;
      }
      if settingsOpen || dropdownVisible {
        return;
      }
      ScheduleHide();
    }

    method DragBarEntered()
      modifies this`hideArmed
      ensures !hideArmed
    {
      CancelHide();
    }

    method DragBarDoubleClicked()
      modifies this`sent
      ensures sent == old(sent) + [MaximizeToggle]
    {
      sent := sent + [MaximizeToggle];
    }

    // --- the recent-URL dropdown

    /** The recent button toggles the dropdown and redraws it on opening. */
    method RecentButtonClicked()
      modifies this`dropdownVisible, this`shown
      ensures dropdownVisible == !old(dropdownVisible)
      ensures shown == if dropdownVisible then Some(RenderRecent(config, location)) else old(shown)
    {
      dropdownVisible := !dropdownVisible;
      if dropdownVisible {
        shown := Some(RenderRecent(config, location));
      }
    }

    /** A click anywhere else in the page (clicks inside the dropdown and on
        the recent button go no further): outside the strip it closes the
        dropdown, outside the context menu it closes the menu. */
    method DocumentClicked(inStrip: bool, inMenu: bool)
      modifies this`dropdownVisible, this`menuVisible
      ensures dropdownVisible == (old(dropdownVisible) && inStrip)
      ensures menuVisible == (old(menuVisible) && inMenu)
    {
      if !inStrip {
        dropdownVisible := false;
      }
      if !inMenu {
        menuVisible := false;
      }
    }

    /** A click on row `i` of the dropdown as drawn: every row but the
        current one asks the host to record the visit and then goes to that
        page, unless the host refused. */
    method RecentItemClicked(i: nat, reply: Reply<()>)
      modifies this`sent, this`location
      ensures var target := if shown.Some? then ClickTarget(shown.value, i) else None;
        && (target.None? ==> sent == old(sent) && location == old(location))
        && (target.Some? ==> sent == old(sent) + [SetUrl(target.value)])
        && (target.Some? ==> location == if reply.Rejected? then old(location) else target.value)
    {
      if shown.Some? {
        var target := ClickTarget(shown.value, i);
        if target.Some? {
          sent := sent + [SetUrl(target.value)];
          if !reply.Rejected? {
            location := target.value;
          }
        }
      }
    }

    // --- the strip's buttons and URL bar

    /** The pin button: the icon follows the host's answer; nothing changes
        without a bridge or on a refusal. */
    method PinClicked(reply: Reply<bool>)
      modifies this`sent, this`pinActive
      ensures sent == old(sent) + [ToggleAlwaysOnTop]
      ensures pinActive == if reply.Resolved? then reply.value else old(pinActive)
    {
      sent := sent + [ToggleAlwaysOnTop];
      if reply.Resolved? {
        pinActive := reply.value;
      }
    }

    method UrlTyped(text: string)
      modifies this`urlText
      ensures urlText == text
    {
      urlText := text;
    }

    /** A key in the URL bar: Enter sends the page the bar names, if any,
        and goes there unless the host refused. */
    method UrlKeyPressed(key: string, reply: Reply<()>)
      modifies this`sent, this`location
      ensures var url := UrlBarTarget(old(urlText));
        && (key != "Enter" || url == [] ==> sent == old(sent) && location == old(location))
        && (key == "Enter" && url != [] ==> sent == old(sent) + [SetUrl(url)])
        && (key == "Enter" && url != [] ==>
              location == if reply.Rejected? then old(location) else url)
    {
      if key == "Enter" {
        var url := UrlBarTarget(urlText);
        if url != [] {
          sent := sent + [SetUrl(url)];
          if !reply.Rejected? {
            location := url;
          }
        }
      }
    }

    method HomeClicked()
      modifies this`sent
      ensures sent == old(sent) + [NavigateHome]
    {
      sent := sent + [NavigateHome];
    }

    /** The lock button: the icon follows the host's answer, and locking
        hides the strip and the whole overlay. */
    method LockClicked(reply: Reply<bool>)
      modifies this`sent, this`lockActive, this`stripVisible, this`containerShown
      ensures sent == old(sent) + [ToggleLocked]
      ensures lockActive == if reply.Resolved? then reply.value else old(lockActive)
      ensures reply == Resolved(true) ==> !stripVisible && !containerShown
      ensures reply != Resolved(true) ==>
        stripVisible == old(stripVisible) && containerShown == old(containerShown)
    {
      sent := sent + [ToggleLocked];
      if reply.Resolved? {
        lockActive := reply.value;
        if reply.value {
          HideStrip();
          containerShown := false;
        }
      }
    }

    /** The strip's opacity slider, in percent. */
    method SliderMoved(percent: int)
      modifies this`sent
      ensures sent == old(sent) + [SetOpacity(SliderOpacity(percent))]
    {
      sent := sent + [SetOpacity(SliderOpacity(percent))];
    }

    method MinimizeClicked()
      modifies this`sent
      ensures sent == old(sent) + [MinimizeWindow]
    {
      sent := sent + [MinimizeWindow];
    }

    /** Closing first asks the host to save the window's geometry; the
        window is closed only when that did not fail. */
    method CloseClicked(saved: Reply<()>)
      modifies this`sent
      ensures sent == old(sent) + [SaveWindowGeometry] + (if saved.Rejected? then [] else [CloseWindow])
    {
      sent := sent + [SaveWindowGeometry];
      if !saved.Rejected? {
        sent := sent + [CloseWindow];
      }
    }

    // --- the settings panel

    method OpenSettings()
      modifies this`settingsOpen
      ensures settingsOpen
    {
      settingsOpen := true;
    }

    method CloseSettings()
      modifies this`settingsOpen
      ensures !settingsOpen
    {
      settingsOpen := false;
    }

    /** A new home page: written into the mirror and sent with the whole
        mirrored configuration; ignored when there is no mirror. */
    method HomeUrlChanged(value: string)
      modifies this`config, this`sent
      ensures old(config).None? ==> config == old(config) && sent == old(sent)
      ensures old(config).Some? ==>
        config == Some(old(config).value.(homeUrl := HomeUrlSetting(value)))
      ensures old(config).Some? ==> sent == old(sent) + [UpdateConfig(config.value)]
    {
      if config.Some? {
        config := Some(config.value.(homeUrl := HomeUrlSetting(value)));
        sent := sent + [UpdateConfig(config.value)];
      }
    }

    /** The panel's always-on-top switch. Without a bridge the page sees
        `null` and shows the setting off; a refusal leaves the page as it
        was. */
    method SettingOnTopClicked(reply: Reply<bool>)
      modifies this`sent, this`pinActive
      ensures sent == old(sent) + [ToggleAlwaysOnTop]
      ensures pinActive == if reply.Rejected? then old(pinActive) else reply == Resolved(true)
    {
      sent := sent + [ToggleAlwaysOnTop];
      if !reply.Rejected? {
        pinActive := reply == Resolved(true);
      }
    }

    /** The panel's lock switch; locking closes the panel and hides the
        strip and the overlay. */
    method SettingLockedClicked(reply: Reply<bool>)
      modifies this`sent, this`lockActive, this`settingsOpen, this`stripVisible, this`containerShown
      ensures sent == old(sent) + [ToggleLocked]
      ensures lockActive == if reply.Rejected? then old(lockActive) else reply == Resolved(true)
      ensures reply == Resolved(true) ==> !settingsOpen && !stripVisible && !containerShown
      ensures reply != Resolved(true) ==>
        settingsOpen == old(settingsOpen) && stripVisible == old(stripVisible) &&
        containerShown == old(containerShown)
    {
      sent := sent + [ToggleLocked];
      if !reply.Rejected? {
        lockActive := reply == Resolved(true);
        if lockActive {
          CloseSettings();
          HideStrip();
          containerShown := false;
        }
      }
    }

    method SettingOpacityMoved(percent: int)
      modifies this`sent
      ensures sent == old(sent) + [SetOpacity(SliderOpacity(percent))]
    {
      sent := sent + [SetOpacity(SliderOpacity(percent))];
    }

    /** Clearing the history empties the mirrored list, sends the mirror and
        redraws the dropdown once the host accepted it. */
    method ClearRecentClicked(reply: Reply<()>)
      modifies this`config, this`sent, this`shown
      ensures old(config).None? ==>
        config == old(config) && sent == old(sent) && shown == old(shown)
      ensures old(config).Some? ==> config == Some(old(config).value.(recentUrls := Some([])))
      ensures old(config).Some? ==> sent == old(sent) + [UpdateConfig(config.value)]
      ensures old(config).Some? ==>
        shown == if reply.Rejected? then old(shown) else Some(NoRecent)
    {
      if config.Some? {
        config := Some(config.value.(recentUrls := Some([])));
        sent := sent + [UpdateConfig(config.value)];
        if !reply.Rejected? {
          shown := Some(RenderRecent(config, location));
        }
      }
    }

    // --- the context menu

    /** A right click on the strip, away from its controls, opens the menu. */
    method ContextMenuOpened(onControl: bool)
      modifies this`menuVisible
      ensures menuVisible == (old(menuVisible) || !onControl)
    {
      if !onControl {
        menuVisible := true;
      }
    }

    method MenuSettingsClicked()
      modifies this`menuVisible, this`stripVisible, this`hideArmed, this`settingsOpen
      ensures !menuVisible && stripVisible && !hideArmed && settingsOpen
    {
      menuVisible := false;
      ShowStrip();
      OpenSettings();
    }

    method MenuOnTopClicked(reply: Reply<bool>)
      modifies this`menuVisible, this`sent, this`pinActive
      ensures !menuVisible
      ensures sent == old(sent) + [ToggleAlwaysOnTop]
      ensures pinActive == if reply.Rejected? then old(pinActive) else reply == Resolved(true)
    {
      menuVisible := false;
      sent := sent + [ToggleAlwaysOnTop];
      if !reply.Rejected? {
        pinActive := reply == Resolved(true);
      }
    }

    method MenuLockedClicked(reply: Reply<bool>)
      modifies this`menuVisible, this`sent, this`lockActive, this`stripVisible, this`containerShown
      ensures !menuVisible
      ensures sent == old(sent) + [ToggleLocked]
      ensures lockActive == if reply.Rejected? then old(lockActive) else reply == Resolved(true)
      ensures reply == Resolved(true) ==> !stripVisible && !containerShown
      ensures reply != Resolved(true) ==>
        stripVisible == old(stripVisible) && containerShown == old(containerShown)
    {
      menuVisible := false;
      sent := sent + [ToggleLocked];
      if !reply.Rejected? {
        lockActive := reply == Resolved(true);
        if lockActive {
          HideStrip();
          containerShown := false;
        }
      }
    }

    method MenuMinimizeClicked()
      modifies this`menuVisible, this`sent
      ensures !menuVisible && sent == old(sent) + [MinimizeWindow]
    {
      menuVisible := false;
      sent := sent + [MinimizeWindow];
    }

    method MenuCloseClicked(saved: Reply<()>)
      modifies this`menuVisible, this`sent
      ensures !menuVisible
      ensures sent == old(sent) + [SaveWindowGeometry] + (if saved.Rejected? then [] else [CloseWindow])
    {
      menuVisible := false;
      CloseClicked(saved);
    }

    // --- the keyboard

    /** Ctrl+L shows the strip and focuses the URL bar; Escape hides a shown
        strip, leaves the bar and closes the settings panel. */
    method KeyPressed(ctrl: bool, key: string)
      modifies this`stripVisible, this`hideArmed, this`urlFocused, this`settingsOpen
      ensures View() == AfterKey(old(View()), ctrl, key)
    {
      if ctrl && key == "l" {
        ShowStrip();
        urlFocused := true;
      }
      if key == "Escape" {
        if stripVisible {
          HideStrip();
          urlFocused := false;
        }
        CloseSettings();
      }
    }

    // --- what the host tells the overlay

    /** The configuration fetched at start-up arrives: the mirror takes it
        (nothing without a bridge; a refusal keeps the old mirror), the
        buttons follow it, and the URL bar is pre-filled. */
    method ConfigLoaded(reply: Reply<AppConfig>)
      modifies this`config, this`pinActive, this`lockActive, this`shown, this`urlText
      ensures config == match reply
        case Bridgeless => None
        case Resolved(c) => Some(c)
        case Rejected(_) => old(config)
      ensures reply.Resolved? ==> pinActive == reply.value.window.alwaysOnTop
      ensures reply.Resolved? ==> lockActive == reply.value.window.locked
      ensures reply.Resolved? ==> shown == Some(RenderRecent(config, location))
      ensures !reply.Resolved? ==>
        pinActive == old(pinActive) && lockActive == old(lockActive) && shown == old(shown)
      ensures urlText == var p := PrefillUrl(location, config); if p.Some? then p.value else old(urlText)
    {
      match reply {
        case Bridgeless =>
          config := None;
        case Resolved(c) =>
          config := Some(c);
          pinActive := c.window.alwaysOnTop;
          lockActive := c.window.locked;
          shown := Some(RenderRecent(config, location));
        case Rejected(_) =>
      }
      var p := PrefillUrl(location, config);
      if p.Some? {
        urlText := p.value;
      }
    }

    /** One setting announced by the host, by event or by script: the
        button follows it, locking hides everything and unlocking shows the
        overlay again, and the mirror takes the new value. */
    method ReceivePush(p: Push)
      modifies this`pinActive, this`lockActive, this`stripVisible, this`containerShown, this`config
      ensures View() == AfterPush(old(View()), p)
    {
      match p {
        case AlwaysOnTop(v) =>
          pinActive := v;
        case Locked(v) =>
          lockActive := v;
          if v {
            HideStrip();
            containerShown := false;
          } else {
            containerShown := true;
          }
        case Opacity(_) =>
      }
      config := MirrorPush(config, p);
    }

    /** The host asks for the settings panel: the overlay is shown with its
        strip and panel open. */
    method ReceiveOpenSettings()
      modifies this`containerShown, this`stripVisible, this`hideArmed, this`settingsOpen
      ensures View() == AfterOpenSettings(old(View()))
    {
      containerShown := true;
      ShowStrip();
      OpenSettings();
    }

    /** The host's whole configuration changed: the mirror is replaced and
        the dropdown redrawn. */
    method ReceiveConfig(c: AppConfig)
      modifies this`config, this`shown
      ensures View() == AfterConfig(old(View()), c, location)
    {
      config := Some(c);
      shown := Some(RenderRecent(config, location));
    }

    /** An event from the host reaches the overlay only once it subscribed. */
    method OnEvent(e: Event)
      modifies this`pinActive, this`lockActive, this`stripVisible, this`containerShown, this`config
      modifies this`hideArmed, this`settingsOpen, this`shown
      ensures View() ==
        if !listenersReady then old(View())
        else match e
          case SettingChanged(p) => AfterPush(old(View()), p)
          case ConfigChanged(c) => AfterConfig(old(View()), c, location)
          case OpenSettings => AfterOpenSettings(old(View()))
    {
      if listenersReady {
        match e
        case SettingChanged(p) => ReceivePush(p);
        case ConfigChanged(c) => ReceiveConfig(c);
        case OpenSettings => ReceiveOpenSettings();
      }
    }

    /** A script the host evaluates in the page. Reloading and stopping act
        on the page itself, not on the overlay. */
    method OnScript(s: Script)
      modifies this`pinActive, this`lockActive, this`stripVisible, this`containerShown, this`config
      modifies this`hideArmed, this`settingsOpen
      ensures View() == match s
        case UpdateOverlay(p) => AfterPush(old(View()), p)
        case OpenSettingsScript => AfterOpenSettings(old(View()))
        case Stop => old(View())
        case Load(_) => old(View())
    {
      match s
      case UpdateOverlay(p) => ReceivePush(p);
      case OpenSettingsScript => ReceiveOpenSettings();
      case Stop =>
      case Load(_) =>
    }

    // --- start-up

    /** Subscribes to the host's events once the event bridge is there;
        subscribing again is a no-op. */
    method SetupListeners(available: bool) returns (ok: bool)
      requires Valid()
      modifies this`listenersReady, this`registrations
      ensures Valid()
      ensures ok == (old(listenersReady) || available)
      ensures listenersReady == ok
    {
      if listenersReady {
        return true;
      }
      if !available {
        return false;
      }
      registrations := registrations + 1;
      listenersReady := true;
      ok := true;
    }

    /** Tries to subscribe at once and then on each of at most a hundred
        50 ms ticks. `available(k)` says whether the event bridge is there
        at try `k`. The overlay subscribes exactly when the bridge shows up
        within those tries, on the first try it is seen, and only once. */
    method StartListeners(available: nat -> bool) returns (tries: nat)
      requires Valid() && !listenersReady
      modifies this`listenersReady, this`registrations
      ensures Valid()
      ensures 1 <= tries <= LISTENER_POLLS + 1
      ensures forall k :: 0 <= k < tries - 1 ==> !available(k)
      ensures listenersReady <==> available(tries - 1)
      ensures listenersReady <==> exists k :: 0 <= k <= LISTENER_POLLS && available(k)
    {
      var ok := SetupListeners(available(0));
      tries := 1;
      if !ok {
        var attempts := 0;
        while true
          invariant Valid() && ok == listenersReady && !ok
          invariant attempts < LISTENER_POLLS && tries == attempts + 1
          invariant forall k :: 0 <= k < tries ==> !available(k)
          decreases LISTENER_POLLS - attempts
        {
          ok := SetupListeners(available(tries));
          tries := tries + 1;
          if ok {
            break;
          }
          attempts := attempts + 1;
          if attempts >= LISTENER_POLLS {
            break;
          }
        }
      }
    }

    /** Puts the overlay into the page once the body exists, starts loading
        the configuration, and never does either twice. */
    method TryInit(bodyPresent: bool) returns (ok: bool)
      requires Valid()
      modifies this`initialized, this`insertions, this`sent
      ensures Valid()
      ensures ok == (old(initialized) || bodyPresent) && initialized == ok
      ensures sent == if old(initialized) || !bodyPresent then old(sent) else old(sent) + [GetConfig]
    {
      if initialized {
        return true;
      }
      if !bodyPresent {
        return false;
      }
      insertions := insertions + 1;
      sent := sent + [GetConfig];
      initialized := true;
      ok := true;
    }

    /** Tries to start at once, then on every 50 ms tick for 30 s, and once
        more when the document finishes parsing, which stops the ticks.
        `bodyAt(k)` says whether the page has a body at tick `k`; `loaded`
        is the tick after which parsing finished, if it does, and
        `bodyAtLoad` whether the page has a body at that moment (a document
        that is not HTML may have none). */
    method StartInit(bodyAt: nat -> bool, loaded: Option<nat>, bodyAtLoad: bool) returns (tries: nat)
      requires Valid() && !initialized
      modifies this`initialized, this`insertions, this`sent
      ensures Valid()
      ensures tries <= INIT_TICKS + 2
      ensures initialized <==>
        (exists k :: 0 <= k <= LastTick(loaded) && bodyAt(k)) || (loaded.Some? && bodyAtLoad)
      ensures sent == old(sent) + (if initialized then [GetConfig] else [])
    {
      var ok := TryInit(bodyAt(0));
      tries := 1;
      if !ok {
        var last := LastTick(loaded);
        var t := 1;
        while t <= last && !ok
          invariant Valid() && ok == initialized
          invariant 1 <= t <= last + 1 && tries == t
          invariant !ok ==> forall k :: 0 <= k < t ==> !bodyAt(k)
          invariant ok ==> bodyAt(t - 1)
          invariant sent == old(sent) + (if ok then [GetConfig] else [])
        {
          ok := TryInit(bodyAt(t));
          t := t + 1;
          tries := t;
        }
        if loaded.Some? {
          ok := TryInit(bodyAtLoad);
          tries := tries + 1;
        }
      }
    }
  }

  /** The page the overlay script runs in. The script may be evaluated more
      than once in the same page; a flag on the page makes every run after
      the first return at once. */
  class Page {
    var initializedFlag: bool
    var overlay: Overlay?

    predicate Valid()
      reads this
    {
      initializedFlag <==> overlay != null
    }

    constructor ()
      ensures Valid() && !initializedFlag && overlay == null
    {
      initializedFlag := false;
      overlay := null;
    }

    /** Runs the overlay script in a page at `location`: the first run
        builds the overlay, later runs leave the page alone. */
    method RunScript(location: string)
      requires Valid()
      modifies this
      ensures Valid() && initializedFlag
      ensures old(initializedFlag) ==> overlay == old(overlay)
      ensures !old(initializedFlag) ==> overlay != null && fresh(overlay)
      ensures !old(initializedFlag) ==>
        overlay.location == location && overlay.Valid() && overlay.sent == []
    {
      if initializedFlag {
        return;
      }
      initializedFlag := true;
      overlay := new Overlay(location);
    }
  }
}

=== FILE: sanitize.dfy ===
/** Bringing any configuration, however it was stored, into the shape the
    host relies on: window size and opacity within their clamps, a
    non-negative monitor index, a loadable home page, a last page that is
    loadable or absent, a clean recent list, and usable hotkey texts. */
module Sanitize {
  import opened Common
  import opened Text
  import opened Config
  import opened Urls
  import opened History

  const MAX_HOTKEY_LEN: nat := 64

  /** Rust's `i32::clamp`. */
  function ClampI32(v: I32, lo: I32, hi: I32): (r: I32)
    requires lo <= hi
    ensures lo <= r <= hi
    ensures lo <= v <= hi ==> r == v
    ensures v < lo ==> r == lo
    ensures v > hi ==> r == hi
  {
    if v < lo then lo else if v > hi then hi else v
  }

  /** `f64::clamp` on the reals (no NaN). */
  function ClampReal(v: real, lo: real, hi: real): (r: real)
    requires lo <= hi
    ensures lo <= r <= hi
    ensures lo <= v <= hi ==> r == v
    ensures v < lo ==> r == lo
    ensures v > hi ==> r == hi
  {
    if v < lo then lo else if v > hi then hi else v
  }

  /** A hotkey text the host accepts as it is: not blank, without leading or
      trailing whitespace (so it is its own trim), and at most 64 bytes in
      UTF-8. */
  predicate ValidHotkeyText(s: string) {
    && s != []
    && !IsRustWhitespace(s[0]) && !IsRustWhitespace(s[|s| - 1])
    && Utf8Len(s) <= MAX_HOTKEY_LEN
  }

  /** The trimmed text, or the fallback when that is blank or too long. */
  function SanitizeHotkey(value: string, fallback: string): (r: string)
    ensures ValidHotkeyText(fallback) ==> ValidHotkeyText(r)
    ensures var t := Trim(value, IsRustWhitespace);
      t != [] && Utf8Len(t) <= MAX_HOTKEY_LEN ==> r == t
    ensures var t := Trim(value, IsRustWhitespace);
      t == [] || Utf8Len(t) > MAX_HOTKEY_LEN ==> r == fallback
  {
    var trimmed := Trim(value, IsRustWhitespace);
    if trimmed == [] || Utf8Len(trimmed) > MAX_HOTKEY_LEN then fallback else trimmed
  }

  /** A usable text is kept as it is, so sanitising twice is sanitising once. */
  lemma SanitizeHotkeyKeepsValid(value: string, fallback: string)
    requires ValidHotkeyText(value)
    ensures SanitizeHotkey(value, fallback) == value
  {
    TrimKeepsClean(value, IsRustWhitespace);
  }

  lemma SanitizeHotkeyIdempotent(value: string, fallback: string)
    requires ValidHotkeyText(fallback)
    ensures SanitizeHotkey(SanitizeHotkey(value, fallback), fallback) == SanitizeHotkey(value, fallback)
  {
    SanitizeHotkeyKeepsValid(SanitizeHotkey(value, fallback), fallback);
  }

  /** Blank or over-long input falls back. */
  lemma SanitizeHotkeyFallsBack(value: string, fallback: string)
    requires Trim(value, IsRustWhitespace) == [] || Utf8Len(Trim(value, IsRustWhitespace)) > MAX_HOTKEY_LEN
    ensures SanitizeHotkey(value, fallback) == fallback
  {
  }

  predicate ValidHotkeys(h: HotkeyConfig) {
    && ValidHotkeyText(h.toggleOnTop)
    && ValidHotkeyText(h.toggleLocked)
    && ValidHotkeyText(h.opacityUp)
    && ValidHotkeyText(h.opacityDown)
    && ValidHotkeyText(h.toggleVisibility)
  }

  /** A short ASCII text that neither starts nor ends with whitespace is a
      valid hotkey text. */
  lemma ShortCleanTextIsValid(s: string)
    requires s != [] && !IsRustWhitespace(s[0]) && !IsRustWhitespace(s[|s| - 1])
    requires 4 * |s| <= MAX_HOTKEY_LEN
    ensures ValidHotkeyText(s)
  {
  }

  /** The default shortcuts are valid hotkey texts, so every sanitised
      configuration has valid ones. */
  lemma DefaultHotkeysValid()
    ensures ValidHotkeys(DefaultHotkeyConfig())
  {
    DefaultOnTopValid();
    DefaultLockedValid();
    DefaultOpacityUpValid();
    DefaultOpacityDownValid();
    DefaultVisibilityValid();
  }

  lemma DefaultOnTopValid()
    ensures ValidHotkeyText(DefaultHotkeyConfig().toggleOnTop)
  {
    AltShiftTextValid("T");
  }

  lemma DefaultLockedValid()
    ensures ValidHotkeyText(DefaultHotkeyConfig().toggleLocked)
  {
    AltShiftTextValid("D");
  }

  lemma DefaultOpacityUpValid()
    ensures ValidHotkeyText(DefaultHotkeyConfig().opacityUp)
  {
    AltShiftTextValid("Up");
  }

  lemma DefaultOpacityDownValid()
    ensures ValidHotkeyText(DefaultHotkeyConfig().opacityDown)
  {
    AltShiftTextValid("Down");
  }

  lemma DefaultVisibilityValid()
    ensures ValidHotkeyText(DefaultHotkeyConfig().toggleVisibility)
  {
    AltShiftTextValid("H");
  }

  /** "Alt+Shift+" followed by a short key name is a valid hotkey text. */
  lemma AltShiftTextValid(key: string)
    requires key != [] && !IsRustWhitespace(key[|key| - 1]) && |key| <= 6
    ensures ValidHotkeyText("Alt+Shift+" + key)
  {
    var s := "Alt+Shift+" + key;
    assert s[0] == 'A' && s[|s| - 1] == key[|key| - 1];
    ShortCleanTextIsValid(s);
  }

  function SanitizeHotkeys(h: HotkeyConfig): (r: HotkeyConfig)
    ensures ValidHotkeys(r)
  {
    var d := DefaultHotkeyConfig();
    DefaultHotkeysValid();
    HotkeyConfig(
      toggleOnTop := SanitizeHotkey(h.toggleOnTop, d.toggleOnTop),
      toggleLocked := SanitizeHotkey(h.toggleLocked, d.toggleLocked),
      opacityUp := SanitizeHotkey(h.opacityUp, d.opacityUp),
      opacityDown := SanitizeHotkey(h.opacityDown, d.opacityDown),
      toggleVisibility := SanitizeHotkey(h.toggleVisibility, d.toggleVisibility))
  }

  /** Valid hotkey texts pass through unchanged. */
  lemma SanitizeHotkeysKeepsValid(h: HotkeyConfig)
    requires ValidHotkeys(h)
    ensures SanitizeHotkeys(h) == h
  {
    var d := DefaultHotkeyConfig();
    SanitizeHotkeyKeepsValid(h.toggleOnTop, d.toggleOnTop);
    SanitizeHotkeyKeepsValid(h.toggleLocked, d.toggleLocked);
    SanitizeHotkeyKeepsValid(h.opacityUp, d.opacityUp);
    SanitizeHotkeyKeepsValid(h.opacityDown, d.opacityDown);
    SanitizeHotkeyKeepsValid(h.toggleVisibility, d.toggleVisibility);
  }

  /** Size clamped to 200..10 000, opacity to 0.1..1.0, monitor at least 0;
      position and flags untouched. */
  function SanitizeWindow(w: WindowConfig): (r: WindowConfig)
    ensures WindowWithinBounds(r)
    ensures r.width == ClampI32(w.width, MIN_WINDOW_SIZE, MAX_WINDOW_SIZE)
    ensures r.height == ClampI32(w.height, MIN_WINDOW_SIZE, MAX_WINDOW_SIZE)
    ensures r.opacity == ClampReal(w.opacity, MIN_OPACITY, MAX_OPACITY)
    ensures w.monitor < 0 ==> r.monitor == 0
    ensures w.monitor >= 0 ==> r.monitor == w.monitor
    ensures r.x == w.x && r.y == w.y && r.alwaysOnTop == w.alwaysOnTop && r.locked == w.locked
  {
    w.(width := ClampI32(w.width, MIN_WINDOW_SIZE, MAX_WINDOW_SIZE),
       height := ClampI32(w.height, MIN_WINDOW_SIZE, MAX_WINDOW_SIZE),
       opacity := ClampReal(w.opacity, MIN_OPACITY, MAX_OPACITY),
       monitor := if w.monitor < 0 then 0 else w.monitor)
  }

  /** A window already within bounds is left as it is. */
  lemma SanitizeWindowKeepsValid(w: WindowConfig)
    requires WindowWithinBounds(w)
    ensures SanitizeWindow(w) == w
  {
  }

  /** The home page: the stored one if it normalises, else the normalised
      default, else the default text itself. */
  function SanitizeHome(home: string, parse: UrlParser): (r: string)
    ensures NormalizeUrl(home, parse).Success? ==> r == NormalizeUrl(home, parse).value
    ensures NormalizeUrl(home, parse).Failure? ==>
      r == if NormalizeUrl(DEFAULT_HOME_URL, parse).Success? then NormalizeUrl(DEFAULT_HOME_URL, parse).value
           else DEFAULT_HOME_URL
  {
    match NormalizeUrl(home, parse)
    case Success(u) => u
    case Failure(_) =>
      match NormalizeUrl(DEFAULT_HOME_URL, parse)
      case Success(u) => u
      case Failure(_) => DEFAULT_HOME_URL
  }

  /** A URL check, such as the host's with a given parser. */
  type Normalizer = string -> Result<string, string>

  function UrlNormalizer(parse: UrlParser): Normalizer {
    u => NormalizeUrl(u, parse)
  }

  /** The normalised form of every URL that normalises, in order. Defined
      from the back, the way a single pass over the list meets them. */
  function NormalizedUrls(urls: seq<string>, norm: Normalizer): (r: seq<string>)
    ensures forall x :: x in r <==> exists i :: 0 <= i < |urls| && norm(urls[i]) == Success(x)
    ensures |r| <= |urls|
  {
    if urls == [] then []
    else
      var init := urls[..|urls| - 1];
      var rest := NormalizedUrls(init, norm);
      assert forall i :: 0 <= i < |init| ==> init[i] == urls[i];
      match norm(urls[|urls| - 1])
      case Success(u) => rest + [u]
      case Failure(_) => rest
  }

  lemma NormalizedUrlsSnoc(urls: seq<string>, u: string, norm: Normalizer)
    ensures NormalizedUrls(urls + [u], norm) ==
      if norm(u).Success? then NormalizedUrls(urls, norm) + [norm(u).value] else NormalizedUrls(urls, norm)
  {
    assert (urls + [u])[..|urls|] == urls;
  }

  lemma {:induction false} NormalizedUrlsPrefix(a: seq<string>, b: seq<string>, norm: Normalizer)
    requires a <= b
    ensures NormalizedUrls(a, norm) <= NormalizedUrls(b, norm)
    decreases |b|
  {
    if |a| < |b| {
      assert a <= b[..|b| - 1];
      NormalizedUrlsPrefix(a, b[..|b| - 1], norm);
    } else {
      assert a == b;
    }
  }

  /** What the clean-up keeps of a stored recent list: the first ten distinct
      normalised URLs. */
  function CleanRecent(urls: seq<string>, norm: Normalizer): seq<string> {
    Take(Dedup(NormalizedUrls(urls, norm)), MAX_RECENT)
  }

  /** One more entry of the stored list: its normal form is kept when it is
      new. */
  lemma CleanStep(urls: seq<string>, i: nat, norm: Normalizer)
    requires i < |urls|
    ensures var before := Dedup(NormalizedUrls(urls[..i], norm));
      var r := norm(urls[i]);
      Dedup(NormalizedUrls(urls[..i + 1], norm)) ==
        if r.Success? && r.value !in before then before + [r.value] else before
  {
    assert urls[..i + 1] == urls[..i] + [urls[i]];
    NormalizedUrlsSnoc(urls[..i], urls[i], norm);
    var r := norm(urls[i]);
    if r.Success? {
      DedupSnoc(NormalizedUrls(urls[..i], norm), r.value);
    }
  }

  /** Once the first entries give ten distinct URLs, the rest of the list
      cannot change the kept ones. */
  lemma CleanStopsAtTen(urls: seq<string>, i: nat, norm: Normalizer)
    requires i <= |urls|
    requires |Dedup(NormalizedUrls(urls[..i], norm))| == MAX_RECENT
    ensures CleanRecent(urls, norm) == Dedup(NormalizedUrls(urls[..i], norm))
  {
    NormalizedUrlsPrefix(urls[..i], urls, norm);
    DedupPrefix(NormalizedUrls(urls[..i], norm), NormalizedUrls(urls, norm));
    TakePrefix(Dedup(NormalizedUrls(urls[..i], norm)), Dedup(NormalizedUrls(urls, norm)), MAX_RECENT);
  }

  /** The clean-up pass: check each entry, keep its normal form if not seen
      before, stop once ten are kept. The check is a parameter; the host
      passes its URL check. */
  method SanitizeRecent(urls: seq<string>, norm: Normalizer) returns (deduped: seq<string>)
    ensures deduped == CleanRecent(urls, norm)
  {
    deduped := [];
    var seen: set<string> := {};
    var i := 0;
    while i < |urls|
      invariant 0 <= i <= |urls|
      invariant deduped == Dedup(NormalizedUrls(urls[..i], norm))
      invariant forall x :: x in seen <==> x in deduped
      invariant |deduped| < MAX_RECENT
    {
      CleanStep(urls, i, norm);
      var r := norm(urls[i]);
      if r.Success? && r.value !in seen {
        seen := seen + {r.value};
        deduped := deduped + [r.value];
      }
      i := i + 1;
      assert deduped == Dedup(NormalizedUrls(urls[..i], norm));
      if |deduped| >= MAX_RECENT {
        break;
      }
    }
    if |deduped| >= MAX_RECENT {
      CleanStopsAtTen(urls, i, norm);
    } else {
      assert urls[..i] == urls;
    }
  }

  /** The configuration after clean-up, field by field. */
  function SanitizedConfigOf(c: AppConfig, parse: UrlParser): AppConfig {
    c.(
      window := SanitizeWindow(c.window),
      homeUrl := SanitizeHome(c.homeUrl, parse),
      lastUrl :=
        match c.lastUrl
        case None => None
        case Some(u) => if NormalizeUrl(u, parse).Success? then Some(NormalizeUrl(u, parse).value) else None,
      recentUrls := Some(CleanRecent(c.recentUrls.GetOr([]), UrlNormalizer(parse))),
      hotkeys := SanitizeHotkeys(c.hotkeys))
  }

  /** The clean-up of a configuration, with its recent-list pass. */
  method SanitizeConfig(c: AppConfig, parse: UrlParser) returns (r: AppConfig)
    ensures r == SanitizedConfigOf(c, parse)
  {
    var recent := SanitizeRecent(c.recentUrls.GetOr([]), UrlNormalizer(parse));
    var lastUrl: Option<string> := None;
    if c.lastUrl.Some? {
      var n := NormalizeUrl(c.lastUrl.value, parse);
      if n.Success? {
        lastUrl := Some(n.value);
      }
    }
    r := c.(
      window := SanitizeWindow(c.window),
      homeUrl := SanitizeHome(c.homeUrl, parse),
      lastUrl := lastUrl,
      recentUrls := Some(recent),
      hotkeys := SanitizeHotkeys(c.hotkeys));
  }

  /** The shape every configuration the host holds has, whatever the URL
      parser does. */
  predicate Sanitized(c: AppConfig) {
    && WindowWithinBounds(c.window)
    && ValidHotkeys(c.hotkeys)
    && c.recentUrls.Some?
    && NoDup(c.recentUrls.value)
    && |c.recentUrls.value| <= MAX_RECENT
  }

  /** Clean-up establishes that shape. */
  lemma SanitizedConfigIsSanitized(c: AppConfig, parse: UrlParser)
    ensures Sanitized(SanitizedConfigOf(c, parse))
  {
    var urls := c.recentUrls.GetOr([]);
    var d := Dedup(NormalizedUrls(urls, UrlNormalizer(parse)));
    NoDupPrefix(d, |CleanRecent(urls, UrlNormalizer(parse))|);
  }

  /** Every URL clean-up keeps is the normalised form of a stored one. */
  lemma SanitizedUrlsAreNormalized(c: AppConfig, parse: UrlParser)
    ensures var r := SanitizedConfigOf(c, parse);
      forall x :: x in r.recentUrls.value ==>
        exists i :: 0 <= i < |c.recentUrls.GetOr([])| && UrlNormalizer(parse)(c.recentUrls.GetOr([])[i]) == Success(x)
    ensures var r := SanitizedConfigOf(c, parse);
      r.lastUrl.Some? ==> c.lastUrl.Some? && NormalizeUrl(c.lastUrl.value, parse) == Success(r.lastUrl.value)
  {
    var urls := c.recentUrls.GetOr([]);
    var n := NormalizedUrls(urls, UrlNormalizer(parse));
    var kept := SanitizedConfigOf(c, parse).recentUrls.value;
    assert kept == Take(Dedup(n), MAX_RECENT);
    forall x | x in kept
      ensures x in n
    {
      assert x in Dedup(n);
    }
  }

  /** Everything but the window, the URLs and the hotkeys is kept. */
  lemma SanitizeKeepsOtherFields(c: AppConfig, parse: UrlParser)
    ensures var r := SanitizedConfigOf(c, parse);
      && r.audioDeviceId == c.audioDeviceId
      && r.launchAtStartup == c.launchAtStartup
      && r.firstRun == c.firstRun
      && r.window.x == c.window.x && r.window.y == c.window.y
      && r.window.alwaysOnTop == c.window.alwaysOnTop
      && r.window.locked == c.window.locked
  {
  }

  /** Two stored entries that normalise to the same URL are kept once, at
      the place of the first; an entry that does not normalise is dropped.
      With "http://example.com", "example.com", "https://example.com" and
      "javascript:alert(1)" this keeps "http://example.com/" and
      "https://example.com/". */
  lemma SameUrlKeptOnce(a: string, b: string, c: string, d: string, x: string, y: string, norm: Normalizer)
    requires norm(a) == Success(x) && norm(b) == Success(y) && norm(c) == Success(y)
    requires norm(d).Failure?
    requires x != y
    ensures CleanRecent([a, b, c, d], norm) == [x, y]
  {
    var urls := [a, b, c, d];
    assert urls[..3][..2][..1] == [a];
    assert NormalizedUrls([a], norm) == [x] by {
      assert [a][..0] == [];
    }
    assert NormalizedUrls(urls[..3][..2], norm) == [x, y];
    assert NormalizedUrls(urls[..3], norm) == [x, y, y];
    assert NormalizedUrls(urls, norm) == [x, y, y];
    var n := [x, y, y];
    assert n[..2][..1] == [x] && n[..1][..0] == [];
    assert Dedup(n[..2]) == [x, y];
  }

  /** A check that accepts its own results unchanged. */
  predicate FixesOwnResults(urls: seq<string>, norm: Normalizer) {
    forall i :: 0 <= i < |urls| && norm(urls[i]).Success? ==> norm(norm(urls[i]).value) == norm(urls[i])
  }

  /** A list of URLs that are each their own normal form passes through. */
  lemma {:induction false} NormalizedUrlsOfFixed(urls: seq<string>, norm: Normalizer)
    requires forall i :: 0 <= i < |urls| ==> norm(urls[i]) == Success(urls[i])
    ensures NormalizedUrls(urls, norm) == urls
  {
    if urls != [] {
      var init, last := urls[..|urls| - 1], urls[|urls| - 1];
      forall i | 0 <= i < |init|
        ensures norm(init[i]) == Success(init[i])
      {
        assert init[i] == urls[i];
      }
      NormalizedUrlsOfFixed(init, norm);
      assert init + [last] == urls;
      NormalizedUrlsSnoc(init, last, norm);
    }
  }

  /** Cleaning a cleaned list changes nothing, when the check accepts its own
      results unchanged. */
  lemma CleanRecentIdempotent(urls: seq<string>, norm: Normalizer)
    requires FixesOwnResults(urls, norm)
    ensures CleanRecent(CleanRecent(urls, norm), norm) == CleanRecent(urls, norm)
  {
    var r := CleanRecent(urls, norm);
    var d := Dedup(NormalizedUrls(urls, norm));
    forall k | 0 <= k < |r|
      ensures norm(r[k]) == Success(r[k])
    {
      assert r[k] in d;
      var i :| 0 <= i < |urls| && norm(urls[i]) == Success(r[k]);
    }
    NormalizedUrlsOfFixed(r, norm);
    NoDupPrefix(d, |r|);
    DedupKeepsDistinct(r);
  }

  /** The parser behaves like the URL standard on the text it is given for
      `s`: a web address serialises with its scheme, parses back to itself,
      and its serialisation is within the length cap. */
  predicate ParsesStably(s: string, parse: UrlParser) {
    && SerializesWithScheme(parse, CandidateOf(s))
    && ReparsesStably(parse, CandidateOf(s))
    && (NormalizeUrl(s, parse).Success? ==> Utf8Len(NormalizeUrl(s, parse).value) <= MAX_URL_LEN)
  }

  lemma NormalizedIsFixed(s: string, parse: UrlParser)
    requires ParsesStably(s, parse) && NormalizeUrl(s, parse).Success?
    ensures NormalizeUrl(NormalizeUrl(s, parse).value, parse) == NormalizeUrl(s, parse)
  {
    NormalizeIdempotent(s, parse);
  }

  lemma StableListIsFixed(urls: seq<string>, parse: UrlParser)
    requires forall i :: 0 <= i < |urls| ==> ParsesStably(urls[i], parse)
    ensures FixesOwnResults(urls, UrlNormalizer(parse))
  {
    var norm := UrlNormalizer(parse);
    forall i | 0 <= i < |urls| && norm(urls[i]).Success?
      ensures norm(norm(urls[i]).value) == norm(urls[i])
    {
      NormalizedIsFixed(urls[i], parse);
    }
  }

  /** Cleaning a cleaned configuration changes nothing, when the parser is
      stable on every URL it holds and on the default home page. */
  lemma SanitizeIdempotent(c: AppConfig, parse: UrlParser)
    requires ParsesStably(c.homeUrl, parse) && ParsesStably(DEFAULT_HOME_URL, parse)
    requires c.lastUrl.Some? ==> ParsesStably(c.lastUrl.value, parse)
    requires forall i :: 0 <= i < |c.recentUrls.GetOr([])| ==> ParsesStably(c.recentUrls.GetOr([])[i], parse)
    ensures SanitizedConfigOf(SanitizedConfigOf(c, parse), parse) == SanitizedConfigOf(c, parse)
  {
    var r := SanitizedConfigOf(c, parse);
    SanitizeWindowKeepsValid(r.window);
    SanitizeHotkeysKeepsValid(r.hotkeys);
    StableListIsFixed(c.recentUrls.GetOr([]), parse);
    CleanRecentIdempotent(c.recentUrls.GetOr([]), UrlNormalizer(parse));
    if NormalizeUrl(c.homeUrl, parse).Success? {
      NormalizedIsFixed(c.homeUrl, parse);
    } else if NormalizeUrl(DEFAULT_HOME_URL, parse).Success? {
      NormalizedIsFixed(DEFAULT_HOME_URL, parse);
    }
    if r.lastUrl.Some? {
      NormalizedIsFixed(c.lastUrl.value, parse);
    }
  }

  /** Reading the stored configuration at start-up: a document that is
      missing, unreadable or malformed gives the cleaned defaults. */
  method LoadConfig(stored: Option<StoredConfig>, parse: UrlParser) returns (c: AppConfig)
    ensures stored.Some? && Deserialize(stored.value).Success? ==>
      c == SanitizedConfigOf(Deserialize(stored.value).value, parse)
    ensures stored.None? || Deserialize(stored.value).Failure? ==>
      c == SanitizedConfigOf(DefaultAppConfig(), parse)
    ensures Sanitized(c)
  {
    if stored.Some? {
      var parsed := Deserialize(stored.value);
      if parsed.Success? {
        c := SanitizeConfig(parsed.value, parse);
        SanitizedConfigIsSanitized(parsed.value, parse);
        return;
      }
    }
    c := SanitizeConfig(DefaultAppConfig(), parse);
    SanitizedConfigIsSanitized(DefaultAppConfig(), parse);
  }
}

=== FILE: text.dfy ===
/** String primitives the host (Rust) and the overlay (JavaScript) rely on:
    trimming, UTF-8 byte length, substring search, ASCII lower-casing and
    splitting on a separator. Strings are sequences of Unicode scalar values. */
module Text {

  /** Unicode White_Space, the set Rust's `str::trim` strips. */
  predicate IsRustWhitespace(c: char) {
    ('\t' <= c <= '\r') || c == ' ' || c == '\U{0085}' || c == '\U{00A0}'
    || c == '\U{1680}' || ('\U{2000}' <= c <= '\U{200A}') || c == '\U{2028}'
    || c == '\U{2029}' || c == '\U{202F}' || c == '\U{205F}' || c == '\U{3000}'
  }

  /** ECMAScript WhiteSpace and LineTerminator, the set `String.prototype.trim`
      strips: it has U+FEFF, which Rust keeps, and lacks U+0085, which Rust strips. */
  predicate IsJsWhitespace(c: char) {
    ('\t' <= c <= '\r') || c == ' ' || c == '\U{00A0}' || c == '\U{FEFF}'
    || c == '\U{1680}' || ('\U{2000}' <= c <= '\U{200A}') || c == '\U{2028}'
    || c == '\U{2029}' || c == '\U{202F}' || c == '\U{205F}' || c == '\U{3000}'
  }

  /** Whether position `k` of `s` holds a character of `ws`. Kept as a
      predicate of its own so that facts about whole strings are only
      unfolded at the positions a proof asks about. */
  predicate WsAt(s: string, k: int, ws: char -> bool) {
    0 <= k < |s| && ws(s[k])
  }

  /** The longest suffix of `s` that does not start with a character of `ws`. */
  function TrimStart(s: string, ws: char -> bool): (r: string)
    ensures |r| <= |s| && r == s[|s| - |r|..]
    ensures r != [] ==> !ws(r[0])
    ensures forall k :: 0 <= k < |s| - |r| ==> WsAt(s, k, ws)
  {
    if s != [] && ws(s[0]) then
      var r := TrimStart(s[1..], ws);
      WsPrefixCons(s, |s| - 1 - |r|, ws);
      r
    else s
  }

  lemma WsPrefixCons(s: string, n: int, ws: char -> bool)
    requires s != [] && ws(s[0]) && 0 <= n <= |s| - 1
    requires forall k :: 0 <= k < n ==> WsAt(s[1..], k, ws)
    ensures forall k :: 0 <= k < n + 1 ==> WsAt(s, k, ws)
  {
    forall k | 0 <= k < n + 1
      ensures WsAt(s, k, ws)
    {
      if k > 0 {
        assert WsAt(s[1..], k - 1, ws);
      }
    }
  }

  /** The longest prefix of `s` that does not end with a character of `ws`. */
  function TrimEnd(s: string, ws: char -> bool): (r: string)
    ensures |r| <= |s| && r == s[..|r|]
    ensures r != [] ==> !ws(r[|r| - 1])
    ensures forall k :: |r| <= k < |s| ==> WsAt(s, k, ws)
  {
    if s != [] && ws(s[|s| - 1]) then
      var r := TrimEnd(s[..|s| - 1], ws);
      WsSuffixSnoc(s, s[..|s| - 1], |r|, ws);
      r
    else s
  }

  lemma WsSuffixSnoc(s: string, u: string, n: int, ws: char -> bool)
    requires s != [] && ws(s[|s| - 1]) && u == s[..|s| - 1] && 0 <= n <= |u|
    requires forall k :: n <= k < |u| ==> WsAt(u, k, ws)
    ensures forall k :: n <= k < |s| ==> WsAt(s, k, ws)
  {
    forall k | n <= k < |s|
      ensures WsAt(s, k, ws)
    {
      if k < |s| - 1 {
        assert WsAt(u, k, ws);
      }
    }
  }

  /** `s` without its leading and trailing characters of `ws`. */
  function Trim(s: string, ws: char -> bool): (r: string)
    ensures |r| <= |s|
    ensures r == [] <==> forall k :: 0 <= k < |s| ==> WsAt(s, k, ws)
    ensures r != [] ==> !ws(r[0]) && !ws(r[|r| - 1])
  {
    var t := TrimStart(s, ws);
    var r := TrimEnd(t, ws);
    TrimEmptyIff(s, t, r, ws);
    r
  }

  lemma TrimEmptyIff(s: string, t: string, r: string, ws: char -> bool)
    requires t == TrimStart(s, ws) && r == TrimEnd(t, ws)
    ensures r == [] <==> forall k :: 0 <= k < |s| ==> WsAt(s, k, ws)
  {
    var d := |s| - |t|;
    if r == [] {
      forall k | 0 <= k < |s|
        ensures WsAt(s, k, ws)
      {
        if k >= d {
          assert WsAt(t, k - d, ws);
          assert t[k - d] == s[k];
        }
      }
    } else {
      assert t[0] == s[d];
      assert !WsAt(s, d, ws);
    }
  }

  /** The trim is the slice of `s` between its leading and its trailing
      run of whitespace: what is cut off on either side is whitespace only. */
  lemma TrimIsInfix(s: string, ws: char -> bool) returns (i: nat)
    ensures i + |Trim(s, ws)| <= |s| && Trim(s, ws) == s[i..i + |Trim(s, ws)|]
    ensures forall k :: 0 <= k < i ==> WsAt(s, k, ws)
    ensures forall k :: i + |Trim(s, ws)| <= k < |s| ==> WsAt(s, k, ws)
  {
    var t := TrimStart(s, ws);
    var r := TrimEnd(t, ws);
    i := |s| - |t|;
    assert r == Trim(s, ws);
    assert r == s[i..i + |r|] by {
      assert t == s[i..];
      assert r == t[..|r|];
    }
    forall k | i + |r| <= k < |s|
      ensures WsAt(s, k, ws)
    {
      assert WsAt(t, k - i, ws);
      assert t[k - i] == s[k];
    }
  }

  /** A string that neither starts nor ends with whitespace is its own trim;
      in particular trimming is idempotent. */
  lemma TrimKeepsClean(s: string, ws: char -> bool)
    requires s == [] || (!ws(s[0]) && !ws(s[|s| - 1]))
    ensures Trim(s, ws) == s
  {
  }

  lemma TrimIdempotent(s: string, ws: char -> bool)
    ensures Trim(Trim(s, ws), ws) == Trim(s, ws)
  {
    TrimKeepsClean(Trim(s, ws), ws);
  }

  /** Trimming keeps a prefix that starts with a character outside `ws` and
      contains one at index `|p| - 1`. */
  lemma {:induction false} TrimKeepsPrefix(s: string, p: string, ws: char -> bool)
    requires |p| > 0 && |p| <= |s| && s[..|p|] == p
    requires !ws(p[0]) && !ws(p[|p| - 1])
    ensures |Trim(s, ws)| >= |p| && Trim(s, ws)[..|p|] == p
  {
    var t := TrimStart(s, ws);
    assert t == s;
    assert |TrimEnd(t, ws)| >= |p| by {
      assert !WsAt(s, |p| - 1, ws);
    }
  }

  /** Number of bytes of the UTF-8 encoding of `c`. */
  function Utf8Width(c: char): (n: nat)
    ensures 1 <= n <= 4
    ensures n == 1 <==> (c as int) < 0x80
  {
    if (c as int) < 0x80 then 1
    else if (c as int) < 0x800 then 2
    else if (c as int) < 0x1_0000 then 3
    else 4
  }

  /** Byte length of the UTF-8 encoding of `s` (Rust's `str::len`). */
  function Utf8Len(s: string): (n: nat)
    ensures |s| <= n <= 4 * |s|
    ensures n == |s| <==> forall k :: 0 <= k < |s| ==> (s[k] as int) < 0x80
  {
    if s == [] then 0 else Utf8Width(s[0]) + Utf8Len(s[1..])
  }

  /** The byte length is additive: a string takes as many bytes as its
      characters' encodings together. */
  lemma {:induction false} Utf8LenAppend(a: string, b: string)
    ensures Utf8Len(a + b) == Utf8Len(a) + Utf8Len(b)
    decreases |a|
  {
    if a != [] {
      assert (a + b)[0] == a[0] && (a + b)[1..] == a[1..] + b;
      Utf8LenAppend(a[1..], b);
    } else {
      assert a + b == b;
    }
  }

  lemma Utf8LenSingle(c: char)
    ensures Utf8Len([c]) == Utf8Width(c)
  {
    assert [c][1..] == [];
  }

  predicate StartsWith(s: string, p: string) {
    |p| <= |s| && s[..|p|] == p
  }

  /** Whether `p` occurs in `s` (Rust's `str::contains`). */
  predicate Contains(s: string, p: string)
    decreases |s|
  {
    StartsWith(s, p) || (s != [] && Contains(s[1..], p))
  }

  /** An occurrence at any index is found. */
  lemma {:induction false} ContainsAt(s: string, p: string, i: nat)
    requires i + |p| <= |s| && s[i..i + |p|] == p
    ensures Contains(s, p)
  {
    if i > 0 {
      assert s[1..][i - 1..i - 1 + |p|] == s[i..i + |p|];
      ContainsAt(s[1..], p, i - 1);
    }
  }

  /** Conversely, a string that contains `p` has an occurrence at some index. */
  lemma {:induction false} ContainsHasIndex(s: string, p: string) returns (i: nat)
    requires Contains(s, p)
    ensures i + |p| <= |s| && s[i..i + |p|] == p
    decreases |s|
  {
    if StartsWith(s, p) {
      i := 0;
    } else {
      var j := ContainsHasIndex(s[1..], p);
      assert s[1..][j..j + |p|] == s[j + 1..j + 1 + |p|];
      i := j + 1;
    }
  }

  /** An occurrence of "://" is a ':' directly followed by a '/'. */
  lemma SeparatorHasColonSlash(s: string)
    requires Contains(s, "://")
    ensures exists i :: 0 <= i < |s| - 1 && s[i] == ':' && s[i + 1] == '/'
  {
    var i := ContainsHasIndex(s, "://");
    assert s[i..i + 3][0] == ':' && s[i..i + 3][1] == '/';
  }

  function AsciiLowerChar(c: char): char {
    if 'A' <= c <= 'Z' then (c as int + 32) as char else c
  }

  function AsciiLower(s: string): (r: string)
    ensures |r| == |s|
  {
    if s == [] then [] else [AsciiLowerChar(s[0])] + AsciiLower(s[1..])
  }

  /** The modifier spellings of the default shortcuts are clean, and lower
      to the words the shortcut reader compares against. */
  lemma AltIsClean()
    ensures Trim("Alt", IsRustWhitespace) == "Alt"
  {
    TrimKeepsClean("Alt", IsRustWhitespace);
  }

  lemma AltLowers()
    ensures AsciiLower("Alt") == "alt"
  {
  }

  lemma ShiftIsClean()
    ensures Trim("Shift", IsRustWhitespace) == "Shift"
  {
    TrimKeepsClean("Shift", IsRustWhitespace);
  }

  lemma ShiftLowers()
    ensures AsciiLower("Shift") == "shift"
  {
  }

  function Split(s: string, sep: char): (parts: seq<string>)
    ensures |parts| >= 1
    ensures forall i :: 0 <= i < |parts| ==> sep !in parts[i]
  {
    if s == [] then [[]]
    else
      var rest := Split(s[1..], sep);
      if s[0] == sep then [[]] + rest else [[s[0]] + rest[0]] + rest[1..]
  }

  function Join(parts: seq<string>, sep: char): string
    requires |parts| >= 1
  {
    if |parts| == 1 then parts[0] else parts[0] + [sep] + Join(parts[1..], sep)
  }

  /** Joining the pieces with the separator gives the string back. */
  lemma {:induction false} JoinSplit(s: string, sep: char)
    ensures Join(Split(s, sep), sep) == s
  {
    if s != [] {
      var rest := Split(s[1..], sep);
      JoinSplit(s[1..], sep);
      if s[0] != sep {
        if |rest| == 1 {
          assert Split(s, sep) == [[s[0]] + rest[0]];
        } else {
          assert Split(s, sep)[1..] == rest[1..];
        }
      }
    }
  }

  /** A piece without the separator splits to itself. */
  lemma {:induction false} SplitNoSeparator(p: string, sep: char)
    requires sep !in p
    ensures Split(p, sep) == [p]
  {
    if p != [] {
      SplitNoSeparator(p[1..], sep);
      assert [p[0]] + p[1..] == p;
    }
  }

  /** The ends of a concatenation of two non-empty texts. */
  lemma ConcatEnds(p: string, t: string)
    requires p != [] && t != []
    ensures (p + t)[0] == p[0] && (p + t)[|p + t| - 1] == t[|t| - 1]
  {
  }

  /** Text without a '/' contains no "://". */
  lemma {:induction false} NoSlashNoSeparator(s: string)
    requires '/' !in s
    ensures !Contains(s, "://")
    decreases |s|
  {
    if s != [] {
      if |s| >= 3 {
        assert s[1] != '/';
      }
      assert '/' !in s[1..] by {
        forall k | 0 <= k < |s| - 1
          ensures s[1..][k] != '/'
        {
          assert s[1..][k] == s[k + 1];
        }
      }
      NoSlashNoSeparator(s[1..]);
    }
  }

  lemma HttpsLowers()
    ensures AsciiLower("https") == "https"
  {
  }

  lemma FileLowers()
    ensures AsciiLower("file") == "file"
  {
  }

  /** Whether `t` is `s` lower-cased, character by character. */
  predicate LowersTo(s: string, t: string)
    decreases |s|
  {
    |s| == |t| && (s == [] || (AsciiLowerChar(s[0]) == t[0] && LowersTo(s[1..], t[1..])))
  }

  lemma {:induction false} LowersToLower(s: string, t: string)
    requires LowersTo(s, t)
    ensures AsciiLower(s) == t
    decreases |s|
  {
    if s != [] {
      LowersToLower(s[1..], t[1..]);
      assert t == [t[0]] + t[1..];
    }
  }

  lemma UpperHttpsPrefixLowers()
    ensures AsciiLower("HTTPS://") == "https://"
  {
    LowersToLower("HTTPS://", "https://");
  }

  lemma HttpsPrefixLowers()
    ensures AsciiLower("https://") == "https://"
  {
    LowersToLower("https://", "https://");
  }

  /** Three pieces without the separator, joined by it, split back apart. */
  lemma SplitThree(a: string, b: string, c: string, sep: char)
    requires sep !in a && sep !in b && sep !in c
    ensures Split(a + [sep] + b + [sep] + c, sep) == [a, b, c]
  {
    var tail := b + [sep] + c;
    assert a + [sep] + b + [sep] + c == a + [sep] + tail;
    SplitNoSeparator(c, sep);
    SplitCons(b, c, sep);
    SplitCons(a, tail, sep);
  }

  /** Splitting `p + sep + s`, where `p` has no separator, yields `p` first
      and then the pieces of `s`. */
  lemma {:induction false} SplitCons(p: string, s: string, sep: char)
    requires sep !in p
    ensures Split(p + [sep] + s, sep) == [p] + Split(s, sep)
  {
    if p == [] {
      assert p + [sep] + s == [sep] + s;
      assert ([sep] + s)[1..] == s;
    } else {
      var whole := p + [sep] + s;
      assert whole[1..] == p[1..] + [sep] + s;
      SplitCons(p[1..], s, sep);
      assert [p[0]] + p[1..] == p;
    }
  }

  /** Splitting undoes joining pieces that hold no separator. */
  lemma {:induction false} SplitJoin(parts: seq<string>, sep: char)
    requires |parts| >= 1
    requires forall i :: 0 <= i < |parts| ==> sep !in parts[i]
    ensures Split(Join(parts, sep), sep) == parts
  {
    if |parts| == 1 {
      SplitNoSeparator(parts[0], sep);
    } else {
      SplitJoin(parts[1..], sep);
      SplitCons(parts[0], Join(parts[1..], sep), sep);
      assert [parts[0]] + parts[1..] == parts;
    }
  }
}

=== FILE: urls.dfy ===
/** Validation and normalisation of user-supplied URLs on the host side.
    The URL parser itself is not modelled: every operation takes it as a
    parameter, a function from text to an optional parsed record, and the
    lemmas that need a fact about it state that fact as a precondition. */
module Urls {
  import opened Common
  import opened Text

  const MAX_URL_LEN: nat := 2048

  /** What the parser reports about a URL: its scheme (lower case), its host
      if any, and its serialised form. */
  datatype ParsedUrl = ParsedUrl(scheme: string, host: Option<string>, serialized: string)

  type UrlParser = string -> Option<ParsedUrl>

  /** A web address the host agrees to load. */
  predicate IsWebUrl(p: ParsedUrl) {
    (p.scheme == "http" || p.scheme == "https") && p.host.Some?
  }

  /** The text handed to the parser: the input itself when it names a scheme
      with "://", otherwise the input behind "https://". */
  function Candidate(trimmed: string): (c: string)
    ensures Contains(c, "://")
    ensures Contains(trimmed, "://") ==> c == trimmed
    ensures !Contains(trimmed, "://") ==> c == "https://" + trimmed
  {
    if Contains(trimmed, "://") then trimmed
    else
      var c := "https://" + trimmed;
      ContainsAt(c, "://", 5);
      c
  }

  /** The host's check of a user-supplied URL: trim it, refuse it when blank
      or longer than 2048 bytes, put "https://" in front when it has no
      "://", parse it, and accept it only as an http or https address with a
      host, in the parser's serialised form. */
  function NormalizeUrl(raw: string, parse: UrlParser): Result<string, string>
  {
    var trimmed := Trim(raw, IsRustWhitespace);
    if trimmed == [] then Failure("URL cannot be empty")
    else if Utf8Len(trimmed) > MAX_URL_LEN then Failure("URL is too long")
    else
      match parse(Candidate(trimmed))
      case None => Failure("Invalid URL")
      case Some(p) =>
        if p.scheme != "http" && p.scheme != "https" then Failure("Only http and https URLs are allowed")
        else if p.host.None? then Failure("URL must include a host")
        else Success(p.serialized)
  }

  /** The outcome of the check, case by case: the two early refusals, and
      acceptance exactly when the parser reports a web address with a host
      for the candidate text, whose serialisation is then the result. */
  lemma NormalizeUrlCases(raw: string, parse: UrlParser)
    ensures var r := NormalizeUrl(raw, parse);
      && (Trim(raw, IsRustWhitespace) == [] ==> r == Failure("URL cannot be empty"))
      && ((Trim(raw, IsRustWhitespace) != [] && Utf8Len(Trim(raw, IsRustWhitespace)) > MAX_URL_LEN)
            ==> r == Failure("URL is too long"))
      && (r.Success? <==>
            && Trim(raw, IsRustWhitespace) != []
            && Utf8Len(Trim(raw, IsRustWhitespace)) <= MAX_URL_LEN
            && parse(CandidateOf(raw)).Some?
            && IsWebUrl(parse(CandidateOf(raw)).value))
      && (r.Success? ==> r.value == parse(CandidateOf(raw)).value.serialized)
  {
    var t := Trim(raw, IsRustWhitespace);
    if t != [] && Utf8Len(t) <= MAX_URL_LEN {
      ParsedVerdict(raw, parse);
    }
  }

  /** Past the early refusals, the parser's answer decides. */
  lemma ParsedVerdict(raw: string, parse: UrlParser)
    requires Trim(raw, IsRustWhitespace) != []
    requires Utf8Len(Trim(raw, IsRustWhitespace)) <= MAX_URL_LEN
    ensures var r := NormalizeUrl(raw, parse);
      && (r.Success? <==> parse(CandidateOf(raw)).Some? && IsWebUrl(parse(CandidateOf(raw)).value))
      && (r.Success? ==> r.value == parse(CandidateOf(raw)).value.serialized)
  {
    match parse(CandidateOf(raw))
    case None =>
    case Some(p) =>
  }

  /** Input that is already trimmed, within the length cap and without
      "://" is loaded as whatever the parser makes of it behind "https://",
      provided that is a web address. */
  lemma BareInputGetsHttps(raw: string, parse: UrlParser, p: ParsedUrl)
    requires raw != [] && Trim(raw, IsRustWhitespace) == raw
    requires !Contains(raw, "://") && Utf8Len(raw) <= MAX_URL_LEN
    requires parse("https://" + raw) == Some(p) && IsWebUrl(p)
    ensures NormalizeUrl(raw, parse) == Success(p.serialized)
  {
  }

  /** "example.com" is loaded as "https://example.com/", given that the parser
      reads "https://example.com" the way the URL standard does. */
  lemma ExampleComNormalizes(raw: string, parse: UrlParser)
    requires raw == "example.com"
    requires parse("https://" + raw) == Some(ParsedUrl("https", Some(raw), "https://" + raw + "/"))
    ensures NormalizeUrl(raw, parse) == Success("https://" + raw + "/")
  {
    assert !IsRustWhitespace(raw[0]) && !IsRustWhitespace(raw[|raw| - 1]);
    TrimKeepsClean(raw, IsRustWhitespace);
    if Contains(raw, "://") {
      SeparatorHasColonSlash(raw);
      assert false;
    }
    assert Utf8Len(raw) <= 4 * |raw|;
    BareInputGetsHttps(raw, parse, ParsedUrl("https", Some(raw), "https://" + raw + "/"));
  }

  /** The text in front of the first ':' (all of `s` when there is none). */
  function SchemeText(s: string): (t: string)
    ensures |t| <= |s| && t == s[..|t|]
    ensures ':' !in t
    ensures |t| < |s| ==> s[|t|] == ':'
  {
    if s == [] || s[0] == ':' then [] else [s[0]] + SchemeText(s[1..])
  }

  /** Parser fact about input `s`: the reported scheme is the lower-cased
      text before the colon. */
  predicate ReportsSchemeOfText(parse: UrlParser, s: string) {
    parse(s).Some? ==> parse(s).value.scheme == AsciiLower(SchemeText(s))
  }

  /** Parser fact about input `s`: a web URL serialises as its scheme, "://",
      and the rest. */
  predicate SerializesWithScheme(parse: UrlParser, s: string) {
    parse(s).Some? && IsWebUrl(parse(s).value) ==>
      StartsWith(parse(s).value.serialized, parse(s).value.scheme + "://")
  }

  /** Parser fact about input `s`: a web URL's serialisation does not end in
      whitespace and parses back to the same record. */
  predicate ReparsesStably(parse: UrlParser, s: string) {
    parse(s).Some? && IsWebUrl(parse(s).value) ==>
      && parse(s).value.serialized != []
      && !IsRustWhitespace(parse(s).value.serialized[|parse(s).value.serialized| - 1])
      && parse(parse(s).value.serialized) == parse(s)
  }

  /** The text the parser sees for `raw`. */
  function CandidateOf(raw: string): string {
    Candidate(Trim(raw, IsRustWhitespace))
  }

  /** Input without "://" is parsed behind "https://". */
  lemma CandidateBare(raw: string)
    requires !Contains(Trim(raw, IsRustWhitespace), "://")
    ensures CandidateOf(raw) == "https://" + Trim(raw, IsRustWhitespace)
  {
  }

  /** What an accepted input tells about the parser's answer. */
  lemma AcceptedParse(raw: string, parse: UrlParser)
    requires NormalizeUrl(raw, parse).Success?
    ensures parse(CandidateOf(raw)).Some? && IsWebUrl(parse(CandidateOf(raw)).value)
    ensures NormalizeUrl(raw, parse).value == parse(CandidateOf(raw)).value.serialized
  {
  }

  /** The scheme text of "https://..." lowers to "https". */
  lemma HttpsSchemeText(t: string)
    ensures AsciiLower(SchemeText("https://" + t)) == "https"
  {
    assert "https://" + t == "https" + ":" + ("//" + t);
    SchemeTextBeforeColon("https", "//" + t);
    HttpsLowers();
  }

  /** A serialisation that starts with a web scheme and "://" starts with
      "http://" or "https://". */
  lemma WebPrefix(v: string, scheme: string)
    requires scheme == "http" || scheme == "https"
    requires StartsWith(v, scheme + "://")
    ensures StartsWith(v, "http://") || StartsWith(v, "https://")
  {
    if scheme == "http" {
      assert scheme + "://" == "http://";
    } else {
      assert scheme + "://" == "https://";
    }
  }

  /** Input that names its own scheme with "://" is rejected when that scheme
      is neither http nor https. */
  lemma OtherSchemeRejected(raw: string, parse: UrlParser, scheme: string)
    requires ReportsSchemeOfText(parse, CandidateOf(raw))
    requires Contains(Trim(raw, IsRustWhitespace), "://")
    requires AsciiLower(SchemeText(Trim(raw, IsRustWhitespace))) == scheme
    requires scheme != "http" && scheme != "https"
    ensures NormalizeUrl(raw, parse).Failure?
  {
  }

  /** Every "file://" address is rejected ("file:///tmp/test" among them),
      given that the parser reports the scheme it reads. */
  lemma FileUrlRejected(raw: string, parse: UrlParser)
    requires |raw| >= 7 && raw[..7] == "file://" && !IsRustWhitespace(raw[|raw| - 1])
    requires ReportsSchemeOfText(parse, raw)
    ensures NormalizeUrl(raw, parse).Failure?
  {
    FileFacts(raw);
    FileIsNotWeb();
    CleanSchemedRejected(raw, parse, "file");
  }

  lemma FileIsNotWeb()
    ensures "file" != "http" && "file" != "https"
  {
    assert "file"[0] != "http"[0];
  }

  lemma FileFacts(raw: string)
    requires |raw| >= 7 && raw[..7] == "file://" && !IsRustWhitespace(raw[|raw| - 1])
    ensures Trim(raw, IsRustWhitespace) == raw && Contains(raw, "://")
    ensures AsciiLower(SchemeText(raw)) == "file"
  {
    FileIsClean(raw);
    FileSchemeText(raw);
  }

  lemma FileIsClean(raw: string)
    requires |raw| >= 7 && raw[..7] == "file://" && !IsRustWhitespace(raw[|raw| - 1])
    ensures Trim(raw, IsRustWhitespace) == raw
  {
    assert raw[0] == 'f';
    TrimKeepsClean(raw, IsRustWhitespace);
  }

  lemma FileSchemeText(raw: string)
    requires |raw| >= 7 && raw[..7] == "file://"
    ensures Contains(raw, "://")
    ensures AsciiLower(SchemeText(raw)) == "file"
  {
    assert raw[4..7] == raw[..7][4..7] == "://";
    ContainsAt(raw, "://", 4);
    assert raw == "file" + ":" + raw[5..] by {
      assert raw[..4] == raw[..7][..4] == "file";
      assert raw[4] == raw[..7][4] == ':';
    }
    SchemeTextBeforeColon("file", raw[5..]);
    FileLowers();
  }

  /** Trimmed input with "://" whose scheme text is not a web scheme is
      rejected. */
  lemma CleanSchemedRejected(raw: string, parse: UrlParser, scheme: string)
    requires Trim(raw, IsRustWhitespace) == raw && Contains(raw, "://")
    requires ReportsSchemeOfText(parse, raw)
    requires AsciiLower(SchemeText(raw)) == scheme
    requires scheme != "http" && scheme != "https"
    ensures NormalizeUrl(raw, parse).Failure?
  {
    assert CandidateOf(raw) == raw;
    OtherSchemeRejected(raw, parse, scheme);
  }

  /** Whatever the input, an accepted URL is an http or https address: a
      "javascript:" or "file:" input can never come out under its own scheme. */
  lemma AcceptedIsHttp(raw: string, parse: UrlParser)
    requires SerializesWithScheme(parse, CandidateOf(raw))
    requires NormalizeUrl(raw, parse).Success?
    ensures StartsWith(NormalizeUrl(raw, parse).value, "http://")
         || StartsWith(NormalizeUrl(raw, parse).value, "https://")
  {
    AcceptedParse(raw, parse);
    var p := parse(CandidateOf(raw)).value;
    WebPrefix(p.serialized, p.scheme);
  }

  /** The scheme text of `p:rest`, where `p` has no colon, is `p`. */
  lemma {:induction false} SchemeTextBeforeColon(p: string, rest: string)
    requires ':' !in p
    ensures SchemeText(p + ":" + rest) == p
  {
    if p != [] {
      assert (p + ":" + rest)[1..] == p[1..] + ":" + rest;
      SchemeTextBeforeColon(p[1..], rest);
      assert [p[0]] + p[1..] == p;
    }
  }

  /** Input without "://" that is accepted comes out as an https address. */
  lemma BareAcceptedIsHttps(raw: string, parse: UrlParser)
    requires !Contains(Trim(raw, IsRustWhitespace), "://")
    requires ReportsSchemeOfText(parse, CandidateOf(raw))
    requires SerializesWithScheme(parse, CandidateOf(raw))
    ensures NormalizeUrl(raw, parse).Success? ==>
      StartsWith(NormalizeUrl(raw, parse).value, "https://")
  {
    if NormalizeUrl(raw, parse).Success? {
      BareAccepted(raw, parse);
    }
  }

  lemma BareAccepted(raw: string, parse: UrlParser)
    requires !Contains(Trim(raw, IsRustWhitespace), "://")
    requires ReportsSchemeOfText(parse, CandidateOf(raw))
    requires SerializesWithScheme(parse, CandidateOf(raw))
    requires NormalizeUrl(raw, parse).Success?
    ensures StartsWith(NormalizeUrl(raw, parse).value, "https://")
  {
    CandidateBare(raw);
    AcceptedParse(raw, parse);
    HttpsSchemeText(Trim(raw, IsRustWhitespace));
    var p := parse(CandidateOf(raw)).value;
    assert p.scheme == "https";
    assert p.scheme + "://" == "https://";
  }

  /** Input without a '/' that neither starts nor ends with whitespace has
      no "://", so it is parsed behind "https://" and, if accepted at all,
      comes out as an https address: "javascript:alert(1)" is such an input
      (`JavascriptAlertIsBare`), so it can never load as a script. */
  lemma NoSlashInputIsWrapped(raw: string, parse: UrlParser)
    requires raw != [] && !IsRustWhitespace(raw[0]) && !IsRustWhitespace(raw[|raw| - 1])
    requires '/' !in raw
    requires ReportsSchemeOfText(parse, CandidateOf(raw))
    requires SerializesWithScheme(parse, CandidateOf(raw))
    ensures CandidateOf(raw) == "https://" + raw
    ensures NormalizeUrl(raw, parse).Success? ==>
      StartsWith(NormalizeUrl(raw, parse).value, "https://")
  {
    TrimKeepsClean(raw, IsRustWhitespace);
    NoSlashNoSeparator(raw);
    CandidateBare(raw);
    BareAcceptedIsHttps(raw, parse);
  }

  /** The input of the script-URL test meets the conditions above. */
  lemma JavascriptAlertIsBare()
    ensures var s := "javascript:alert(1)";
      && s != [] && !IsRustWhitespace(s[0]) && !IsRustWhitespace(s[|s| - 1])
      && '/' !in s
  {
  }

  /** A web serialisation starts with 'h' and names its scheme with "://". */
  lemma WebSerialization(v: string, scheme: string)
    requires scheme == "http" || scheme == "https"
    requires StartsWith(v, scheme + "://")
    ensures v != [] && v[0] == 'h' && Contains(v, "://")
  {
    var k := |scheme|;
    assert v[..k + 3] == scheme + "://";
    assert v[0] == v[..k + 3][0] == scheme[0] == 'h';
    assert v[k..k + 3] == v[..k + 3][k..k + 3] == "://";
    ContainsAt(v, "://", k);
  }

  /** Normalising a normalised URL changes nothing, as long as it is within
      the length cap: the host can re-sanitise stored URLs safely. */
  lemma NormalizeIdempotent(raw: string, parse: UrlParser)
    requires SerializesWithScheme(parse, CandidateOf(raw))
    requires ReparsesStably(parse, CandidateOf(raw))
    requires NormalizeUrl(raw, parse).Success?
    requires Utf8Len(NormalizeUrl(raw, parse).value) <= MAX_URL_LEN
    ensures NormalizeUrl(NormalizeUrl(raw, parse).value, parse) == NormalizeUrl(raw, parse)
  {
    NormalizeUrlCases(raw, parse);
    var c := CandidateOf(raw);
    var p := parse(c).value;
    var n := p.serialized;
    WebSerialization(n, p.scheme);
    assert !IsRustWhitespace(n[0]);
    TrimKeepsClean(n, IsRustWhitespace);
    assert CandidateOf(n) == n;
    assert parse(n) == parse(c);
    NormalizeUrlCases(n, parse);
  }
}
